=== FILE: README.md ===
# CS360 chat: registry, server dispatcher and client codec in Dafny

This project models the protocol core of a small TCP chat system. It has three parts.

- The server's client registry (`lib/linkedlist.c`) keeps connection records in arrival order. Each record holds a socket, an identified flag and a display name. Module `LinkedList` models the registry as a sequence of `Node`s whose length is the C list's `count`. Module `LinkedList` also models the list as the code actually keeps it (`RawList`), because `pop` never unlinks a node.
- The server (`chatd.c`) is modelled as a pure step function `Chatd.Step`. Its state is the registry, the watched descriptor set, `fdmax` and the listening socket. One step handles one ready descriptor: a console character, an accepted connection, or one `recv` on a client socket. It returns the next state and the ordered effects: `Send`, `Close`, `Log` and `Exit`. Where the C code has undefined behaviour, the step returns `Undefined` with the reason. The one exception is logging: a `Log` effect carries the line as text, while the C code hands it to `printf` as a format string; module `Format` states what that prints (see Findings). Module `ChatdProps` holds the loop invariant and the protocol's promises for each kind of frame.
- The client (`chatc.c`) is modelled in module `Chatc`. It covers the frame encoder `sendMessage`, the handling of one typed line, and the rendering of one received frame. Module `Session` joins the two sides through the shared frame layout of module `Wire`. That layout is a three-byte ASCII tag, one unsigned length byte, then the payload. For example, `Session.EchoMatchesRelay` shows that the line a client echoes locally is exactly what the server relays and what every other client displays.

Every use of `strlen`, `strcpy`, `strcat`, `strncat` or `strncpy` goes through `Bytes.CStr`: the bytes before the first zero. The server clears its receive buffer at the top of each loop iteration, so a received frame becomes `Pad(data, MAX_LINE)`: the data followed by zeros up to 256 bytes. The constants are those of `config.h`, in module `Config`.

The model follows what the code does, including three places where the outcome is easy to misread:

- `killUser` on a socket the registry does not hold: `isIdentified` returns -1 (lib/linkedlist.c:113), which C treats as true, so `killUser` copies a NULL name (chatd.c:350-356). `Chatd.KillUser` returns `Undefined(NullName)` there.
- An over-long MSG: the code sends "Message too long." and then builds and broadcasts the frame anyway (chatd.c:208-219). `ChatdProps.MsgTooLongStillRelayed` proves this for a frame whose length byte claims too much. `ChatdProps.MsgTooLongOverflows` proves that a well-formed frame this long overflows the 256-byte `newMessage` buffer.
- `pop`: its comment says it removes the node it finds (lib/linkedlist.c:169), but the code frees the node without unlinking it; see Findings.

## Model

| member | source | states |
|---|---|---|
| LinkedList.Initialize | lib/linkedlist.c:23-37 | A fresh registry has count 0, is empty, and holds no socket. |
| LinkedList.FindFrom | lib/linkedlist.c:49-61 | The list walk stops at the first node holding the socket at or after the start position; when it finds none, no such node exists. |
| LinkedList.FindNode | lib/linkedlist.c:49-61 | NULL exactly when no node holds the socket, an empty list included; otherwise the first node that holds it. |
| LinkedList.GetNameBySocket | lib/linkedlist.c:73-79 | A name comes back only when the socket's first node is identified, and it is that node's name; an unidentified or absent socket gives NULL. |
| LinkedList.IsIdentified | lib/linkedlist.c:108-114 | -1 exactly when the socket is absent; otherwise 1 or 0, following the first matching node's flag. |
| LinkedList.SetNameBySocket | lib/linkedlist.c:90-97 | The first matching node becomes identified with the given name of at most 25 bytes; every other node and the count stay as they were. |
| LinkedList.SetIdentified | lib/linkedlist.c:125-130 | Only the first matching node's flag changes; its name, the other nodes and the count stay as they were. |
| LinkedList.Push | lib/linkedlist.c:141-163 | Count grows by one, earlier nodes are unchanged, and the new tail node holds the socket, unidentified. |
| LinkedList.Pop | lib/linkedlist.c:174-180 | Removal as intended: an absent socket changes nothing; otherwise count drops by one and exactly the first matching node leaves. |
| LinkedList.PushThenLookup | lib/linkedlist.c:49-163 | A pushed absent socket is found at the tail, `isIdentified` reports 0 and `getNameBySocket` reports NULL. |
| LinkedList.PopUndoesPush | lib/linkedlist.c:141-180 | Removing a freshly pushed socket gives back the list as it was before the push. |
| LinkedList.PushKeepsDistinct | lib/linkedlist.c:141-163 | Pushing an absent socket keeps every socket registered at most once. |
| LinkedList.SetNameThenLookup | lib/linkedlist.c:73-114 | After naming a present socket, it reads back identified (1) under exactly that name. |
| LinkedList.SetNameKeepsSockets | lib/linkedlist.c:90-97 | Naming keeps every socket in place and the set of present sockets unchanged; each record is either an old one or the named one. |
| LinkedList.PopForgets | lib/linkedlist.c:174-180 | With distinct sockets, the removed socket is gone, every other socket stays present, no record appears and sockets stay distinct. |
| LinkedList.PopKeepsRecords | lib/linkedlist.c:174-180 | After a pop every remaining record is an old one of another socket, and distinct sockets stay distinct. |
| LinkedList.PopKeepsOthers | lib/linkedlist.c:174-180 | A pop keeps every other socket present. |
| LinkedList.RawFind | lib/linkedlist.c:49-61 | On the list as the code keeps it, a zero count hides every node, whatever the chain holds. |
| LinkedList.RawPush | lib/linkedlist.c:141-163 | On the list as the code keeps it, the new node ends the chain, and a zero count restarts the chain at it; otherwise the old chain stays in front of it. |
| LinkedList.RawPop | lib/linkedlist.c:174-180 | `pop` as written: the count drops but the chain keeps the freed node. |
| LinkedList.RawPopKeepsFreedNode | lib/linkedlist.c:174-180 | After pushing sockets 5 and 6 and popping 5, the code's list still finds the freed node for 5. |
| LinkedList.RawPushAgrees | lib/linkedlist.c:141-163 | Before any pop, the code's list and the sequence model agree on push and on lookup. |
| Wire.TagBytesInjective | chatd.c:178-231 | The four tags are spelled differently, so the chain of three-byte comparisons picks at most one. |
| Wire.TagOf | chatd.c:178-231 | A buffer is classified by a tag exactly when its first three bytes spell that tag. |
| Wire.Compose | chatd.c:212-216 | A frame built by copying the tag, storing the length byte and then appending loses its length byte when that byte is zero. |
| Wire.FrameIsComposed | chatd.c:357-359 | A frame with a non-empty C-string payload is exactly what the tag, length and append sequence builds, and contains no zero byte. |
| Chatd.SendLoop | chatd.c:263-267 | The descriptor loop sends the data once to each watched descriptor from the start position up to `fdmax`, except the listener and the sender, in ascending order. |
| Chatd.BroadcastCons | chatd.c:263-267 | Sending to a smaller descriptor before a broadcast gives a broadcast to the larger set. |
| Chatd.SendPacket | chatd.c:259-269 | The C string goes to exactly the watched descriptors other than the listener and the sender, or to nobody when it is longer than 255 bytes. |
| Chatd.SendUserError | chatd.c:324-333 | One ERR frame of `strlen(text) + 4` bytes, to the target socket alone. |
| Chatd.LogLine | chatd.c:281-305 | A line exists exactly for NEW, BYE, or MSG at log level 4 and up, with a length byte of at most 251; it starts with "++ ", "-- " or ":D " by tag, carries at most that many payload bytes and ends in a newline. |
| Chatd.Logger | chatd.c:306-311 | The line goes to the console exactly when the log level is above 1, and to the file exactly when the level is odd and the file is open, each at most once and the console first; the line is written as text, as a `"%s"` format would. |
| Chatd.LogTo | chatd.c:306-311 | The console gets the line exactly when the level is above 1 and the file exactly when the level is odd and the file is open, each at most once and the console first. |
| Chatd.Announce | chatd.c:361-362 | A composed frame is broadcast to every other client, and only log lines of that frame follow. |
| Chatd.KillUser | chatd.c:349-367 | The socket is closed last, removed from the registry and unwatched; an unidentified socket only closes; an unregistered socket has undefined behaviour. |
| Chatd.Refuse | chatd.c:172-176 | The ERR frame to the sender comes first, then the disconnect's state change. |
| Chatd.OnConsole | chatd.c:130-145 | A newline does nothing; any other input broadcasts ERR "Server going down!" to every client and then exits 0. |
| Chatd.OnAccept | chatd.c:146-162 | A failed accept exits 1; a full registry refuses the socket and changes nothing; otherwise the socket is registered unidentified and watched, and `fdmax` rises to it. |
| Chatd.OnNew | chatd.c:178-189 | A length of at most 25 from an unidentified socket stores the name and rebroadcasts the received frame; otherwise the sender is refused. A length of exactly 25 with no zero byte in the name leaves `strcpy` without a terminator: undefined behaviour. |
| Chatd.Identify | chatd.c:179-184 | When defined, the name stored is the payload up to its first zero byte, and the effects are the received buffer's broadcast then its log lines; a 25-byte name with no zero byte is undefined behaviour. |
| Chatd.OnBye | chatd.c:190-202 | A length above 25 does nothing; a length of exactly 25 overflows the 25-byte `userName` with its terminator; a missing stored name has undefined behaviour; otherwise the sender ends up disconnected. |
| Chatd.OnMsg | chatd.c:204-225 | An unidentified sender is refused; an identified one is relayed with its stored name and the state does not change. |
| Chatd.Relay | chatd.c:205-219 | A relay never changes the server state. |
| Chatd.Deliver | chatd.c:212-219 | Delivering a composed line never changes the server state. |
| Chatd.Warning | chatd.c:208-211 | "Message too long." goes to the sender exactly when the relayed length passes 251. |
| Chatd.OnReceive | chatd.c:164-235 | A read of 0 bytes disconnects, 1 to 3 bytes change nothing, a length above 251 is refused, each tag reaches its handler, ERR is refused, and an unknown tag disconnects. |
| Chatd.Boot | chatd.c:100-107 | Setup watches the console and the listener, sets `fdmax` to the listener, registers no client, and a broadcast then reaches only the console. |
| Chatd.Step | chatd.c:128-237 | A received read is handled by the client branch. |
| ChatdProps.BootInv | chatd.c:101-107 | The state after setup satisfies the loop invariant. |
| ChatdProps.ForgetKeepsInv | chatd.c:364-366 | Popping and unwatching a client keeps the invariant and forgets the socket. |
| ChatdProps.KillKeepsInv | chatd.c:349-367 | Under the invariant, disconnecting a watched client is defined, keeps the invariant and forgets the socket. |
| ChatdProps.NameKeepsInv | lib/linkedlist.c:90-97 | Naming a client keeps the invariant. |
| ChatdProps.AdmitKeepsInv | chatd.c:156-161 | Admitting a new socket below capacity keeps the invariant. |
| ChatdProps.NewKeepsInv | chatd.c:178-189 | A defined NEW keeps the invariant. |
| ChatdProps.IdentifyKeepsInv | chatd.c:179-184 | A defined naming of a watched client from its NEW buffer keeps the invariant. |
| ChatdProps.IdentifiedNameFits | chatd.c:179-181 | A defined NEW from a registered socket stores a name shorter than 25 bytes. |
| ChatdProps.ByeKeepsInv | chatd.c:190-202 | A defined BYE keeps the invariant. |
| ChatdProps.MsgKeepsInv | chatd.c:204-225 | A defined MSG keeps the invariant. |
| ChatdProps.ReceiveKeepsInv | chatd.c:164-235 | Every defined client read keeps the invariant. |
| ChatdProps.StepKeepsInv | chatd.c:128-237 | Every defined step on an event the loop can see keeps the invariant. |
| ChatdProps.RunsKeepInv | chatd.c:116-239 | Every state reachable from an invariant state, through defined steps that do not exit, keeps it, so the registry never holds more than 50 clients. |
| ChatdProps.CapacityFromBoot | chatd.c:152-155 | From start-up the registry never exceeds MAX_PENDING entries. |
| ChatdProps.ReadFrame | chatd.c:166-178 | A well-formed frame in the zeroed buffer reads back its tag, its length and its payload as a C string. |
| ChatdProps.FrameTag | chatd.c:178-231 | A frame is classified by its own tag. |
| ChatdProps.Dispatch | chatd.c:178-230 | A well-formed frame reaches the handler of its tag. |
| ChatdProps.StoredName | lib/linkedlist.c:73-79 | Under the invariant, a stored name is a C string shorter than 25 bytes. |
| ChatdProps.FrameLogLine | chatd.c:281-305 | A well-formed NEW, BYE or MSG frame is logged as "++ ", "-- " or ":D ", the payload and a newline; MSG only from log level 4, ERR never. |
| ChatdProps.NewLogLine | chatd.c:288-304 | A NEW frame is logged as "++ " followed by the name and a newline. |
| ChatdProps.IdentifyNames | chatd.c:179-184 | A fresh client's NEW names it, changes no descriptor, rebroadcasts the frame and logs the join line on the console exactly when the level is above 1. |
| ChatdProps.NewIdentifies | chatd.c:178-184 | A received NEW from a fresh client does the same through the main loop. |
| ChatdProps.NewSteps | chatd.c:178-181 | A received NEW from a fresh client reaches the naming half of the NEW handler. |
| ChatdProps.KillDefined | chatd.c:349-367 | Under the invariant, disconnecting a watched client is defined. |
| ChatdProps.RefuseDisconnects | chatd.c:185-188 | A refusal sends the ERR frame, then does exactly what the disconnect does, and keeps the invariant. |
| ChatdProps.NewTwiceRefused | chatd.c:185-188 | A second NEW from an identified client is refused and disconnects it. |
| ChatdProps.KillAnnounces | chatd.c:350-366 | Disconnecting a named client broadcasts BYE with its stored name, then closes the socket. |
| ChatdProps.KillSparesVictim | chatd.c:361 | The disconnected client is never sent anything. |
| ChatdProps.AnnounceSpares | chatd.c:264 | A broadcast sends nothing to a descriptor outside its recipients. |
| ChatdProps.SparedUntilClose | chatd.c:364 | A final close adds no send to the closed socket. |
| ChatdProps.OnByeCompares | chatd.c:191-200 | BYE disconnects when the embedded name equals the stored one, and refuses with "Trying to quit a different user!" otherwise. |
| ChatdProps.ByeFramesDiffer | chatd.c:357-359 | The BYE the server broadcasts carries the stored name, not the one the client claimed. |
| ChatdProps.ByeSteps | chatd.c:190-202 | The same comparison, through the main loop. |
| ChatdProps.ByeOfOtherUser | chatd.c:197-200 | A BYE with a different name gets the error, yet the sender is still disconnected under its own name. |
| ChatdProps.RefuseAnnounces | chatd.c:185-188 | Refusing a named client sends the error, then broadcasts its BYE and closes it. |
| ChatdProps.ByeOfSelf | chatd.c:194-195 | A BYE with the client's own name disconnects it. |
| ChatdProps.ByeBeforeNew | chatd.c:194 | A BYE before NEW compares against a NULL name: undefined behaviour. |
| ChatdProps.RelayedPacket | chatd.c:212-216 | A relayed packet that fits the buffer has no zero byte. |
| ChatdProps.RelayFits | chatd.c:207-219 | A relay that fits the buffer sends the warning, if any, then announces the composed frame. |
| ChatdProps.RelayJoins | chatd.c:206-216 | The relayed text is the stored name, ": " and the payload. |
| ChatdProps.RelayUnfolds | chatd.c:205-219 | The relay joins the name's C string with ": " and the payload's C string. |
| ChatdProps.RelayOverflows | chatd.c:212-216 | A composed frame of 256 bytes or more overflows `newMessage`. |
| ChatdProps.MsgDispatch | chatd.c:204-206 | A MSG from a named client is relayed under its stored name, which fits `userName`. |
| ChatdProps.RelayAnnounces | chatd.c:207-219 | A relay whose text fits a frame announces exactly that MSG frame and changes no state. |
| ChatdProps.FrameRelays | chatd.c:207-219 | The relay of a well-formed MSG frame is the warning followed by the announcement. |
| ChatdProps.RelayedFrame | chatd.c:207-216 | The composed relay is the well-formed MSG frame of the joined text when it fits. |
| ChatdProps.MsgRelays | chatd.c:204-219 | A MSG from a named client reaches every other client as "name: payload" under the correct length byte. |
| ChatdProps.AliceSaysHi | chatd.c:204-219 | An instance of `MsgRelays`: when "alice" sends "hi", the state is unchanged and every other client gets the MSG frame "alice: hi", whose length byte is 9. |
| ChatdProps.MsgTooLongOverflows | chatd.c:208-216 | A well-formed MSG whose relay passes 251 bytes of payload overflows `newMessage`. |
| ChatdProps.FrameRelayOverflows | chatd.c:208-216 | The same overflow, for the relay alone. |
| ChatdProps.RelayWarns | chatd.c:208-219 | A claimed length that passes 251 earns the sender "Message too long.", and the relay goes ahead. |
| ChatdProps.MsgTooLongStillRelayed | chatd.c:208-219 | The same, through the main loop. |
| ChatdProps.MsgBeforeNew | chatd.c:221-224 | A MSG before NEW gets "Identify first and then we'll talk!" and a close, and the socket is forgotten. |
| ChatdProps.ErrRefused | chatd.c:226-230 | A client's ERR gets "Don't care about your problems." and disconnects it. |
| ChatdProps.OversizeRefused | chatd.c:170-177 | A length byte above 251 gets "Invalid packet! Cya!" and disconnects the sender. |
| ChatdProps.HangUpDisconnects | chatd.c:166-169 | A read of 0 bytes disconnects the client. |
| ChatdProps.PercentLineUndefined | chatd.c:306-311 | The join line of a client named "%n" contains a `%n` conversion, so printing it as a format is undefined behaviour. |
| ChatdProps.PercentNameUndefined | chatd.c:178-184 | A fresh client naming itself "%n" makes the server log that line to the console when the level is above 1, and printing it is undefined. |
| ChatdProps.GibberishNotLogged | chatd.c:233 | The gibberish notice never produces a log line, because `logger` finds no tag in it. |
| ChatdProps.UnknownTagDisconnects | chatd.c:231-235 | An unknown tag disconnects the sender without sending it any frame. |
| Chatc.HeaderLength | chatc.c:281-284 | `strlen` of tag and length byte is 3 when the length is 0 and 4 otherwise. |
| Chatc.SendMessage | chatc.c:277-288 | A payload shorter than 251 bytes becomes tag, length and payload, `len + 4` bytes; a longer one sends nothing. |
| Chatc.LoggerAsWritten | chatc.c:257-264 | The client's `logger` as written: the file gets the line exactly when the level is even and the file is open; stderr gets it above 1; each at most once, the file first. The line is written as text. |
| Chatc.Logger | chatc.c:257-264 | The client's `logger` as intended: the file gets the line exactly when the level is odd and the file is open; stderr gets it above 1; each at most once, the file first. |
| Chatc.LogFlagAloneLosesLines | chatc.c:76-83 | With `-l` alone, the written `logger` leaves the opened file empty and the intended one writes to it. |
| Chatc.Start | chatc.c:147-149 | Start-up sends NEW with the client's own name and exits 1 exactly when that send fails. |
| Chatc.OnLine | chatc.c:174-184 | "EXIT" sends BYE with the own name and exits 0; another line is sent as MSG and echoed as "name: line", and an echo of 256 bytes or more overflows `newMessage`. |
| Chatc.Joined | chatc.c:208-217 | The name and suffix fit `newMessage` exactly when they are shorter than 256 bytes together, and then they are displayed as one line; otherwise `strcat` overflows. |
| Chatc.OnReceive | chatc.c:192-235 | A 0-byte read reports the lost connection through `logger` as written and exits 1; short reads and lengths above 251 are ignored; an unknown tag reports gibberish and exits 0. |
| Chatc.LostConnectionUnlogged | chatc.c:192-197 | With `-l` alone, a lost connection writes nothing to the log file, while the intended `logger` would write the notice to it. |
| Chatc.Step | chatc.c:160-238 | A failed read does nothing; "EXIT" sends BYE with the own name and exits 0; another line is sent as MSG and echoed as "name: line", and an echo of 256 bytes or more overflows `newMessage`; a 0-byte read ends by waiting for a key and exiting 1; reads of at most 4 bytes and lengths above 251 are ignored. |
| Session.Rendered | chatc.c:199-227 | A well-formed frame renders NEW and BYE with their suffix, MSG as its payload, and logs ERR after "SERVER ERROR: " through `logger` as written. |
| Format.Printed | chatd.c:306-311 | What `printf` prints for a format string with no arguments: never longer than the format. Its meaning is stated by `PrintedVerbatim`, `PrintedPlainPrefix`, `PrintedEscape` and `PrintedStopsAtConversion`. |
| Format.PrintedVerbatim | chatc.c:258-263 | A line is printed verbatim exactly when it holds no `%`. |
| Format.PrintedStopsAtConversion | chatd.c:306-311 | A `%` that ends the format, or is followed by anything but `%`, makes the whole print undefined, whatever plain text precedes it. |
| Format.PrintedPlainPrefix | chatd.c:306-311 | Text free of `%` is printed as itself in front of what the rest of the format prints, and an undefined rest leaves the whole print undefined. |
| Format.PrintedEscape | chatd.c:306-311 | `%%` after text free of `%` prints one `%`, and the print continues with the rest of the format. |
| Session.JoinSeen | chatc.c:208-212 | The server's NEW for a client shows as "name has joined." |
| Session.LeaveSeen | chatc.c:213-217 | The BYE the server composes in `killUser` shows as "name has left." |
| Session.ChatSeen | chatc.c:218-222 | A relayed MSG shows its whole payload. |
| Session.ErrorSeen | chatc.c:223-227 | An ERR is logged after "SERVER ERROR: " through `logger` as written when the line fits, and overflows `errMessage` otherwise. |
| Session.ServerErrorsFit | chatc.c:223-227 | Every error text the server sends fits the client's "SERVER ERROR: " line. |
| Session.EchoMatchesRelay | chatc.c:178-184 | The line a client echoes locally is exactly the text the server relays to the others, and what each of them displays. |
| Session.EveryoneSees | chatc.c:218-222 | Every client, whatever its settings, displays a relayed MSG the same way. |

## Left out

- Sockets, `select`, `accept`, `recv`, `send`, `close`, `setsockopt`, `bind` and `listen` are I/O. They appear only as the events a step receives and the effects it returns.
- Partial and coalesced reads are not modelled. Each `recv` is one byte sequence of at most 256 bytes.
- The three buffers of the server loop are cleared once per `select` round (chatd.c:117-120), not once per descriptor. The model clears them before every serviced descriptor. It does not model bytes left over from an earlier descriptor in the same round.
- `Chatd.SendUserError` assumes the byte after the length byte in its uncleared stack buffer is zero. If it is not, the C `strncat` starts writing later (chatd.c:326-329).
- The length byte is taken as unsigned. On a platform where `char` is signed, lengths of 128 and above become negative and pass the `> 251` checks (chatd.c:171, chatc.c:203).
- Option parsing with `getopt` is left out. Logging settings are parameters instead: `Chatd.Settings` and `Chatc.Client`.
- Host lookup, `connect`, the ncurses display and `safeExit` are left out. The display appears only as the `Display` effect.
- Writes to the log file appear as `Log` or `LogFile` effects, not as file contents.
- `Chatd.Logger`: its `Log` effects carry the line as text. The C code passes the line to `printf` and `fprintf` as the format string (chatd.c:307, chatd.c:310), so a `%` in a client's name or message is read as a conversion. `Format.Printed` gives what is actually printed, and `ChatdProps.PercentNameUndefined` shows a name that makes it undefined.
- `Chatc.LoggerAsWritten`: its effects carry the text as well, though the C code passes it to `fprintf` as the format string (chatc.c:259, chatc.c:262). The texts the client logs are fixed notices and server error texts; an error text with `%` in it would be read as a conversion (`Format.Printed`).
- Runs of `ChatdProps.Runs` stop at a step that exits, because the process ends there.
- `LinkedList.Push`: a failed `malloc` prints "out of memory" and exits 1 (lib/linkedlist.c:144-147); the model assumes allocation succeeds, so `Chatd.OnAccept` never exits on that path. Allocation depends on the process's memory, which the model does not represent. The C node's name is also left uninitialised. The model gives it the empty name. Only `setIdentified` could expose it, and the server never calls it.
- `isEmpty` is modelled as `LinkedList.IsEmpty`, a predicate without a contract of its own. `LinkedList.Initialize` and `LinkedList.FindNode` state its meaning.
- `LinkedList.SetNameBySocket` requires a name of at most 25 bytes without a zero byte. The record's field holds 26 bytes (lib/linkedlist.h:17), so `strcpy` of a name of 26 bytes or more overflows it: undefined behaviour. The server only passes names of at most 24 bytes (`ChatdProps.IdentifiedNameFits`).
- `Chatd.Relay` and `Chatd.Deliver` state only that the server state is unchanged. What they send is stated by `ChatdProps.RelayFits`, `ChatdProps.RelayAnnounces`, `ChatdProps.RelayWarns` and `ChatdProps.RelayOverflows`.
- `Chatd.Step`: its contract covers the read branch; the console and accept branches are stated by `Chatd.OnConsole` and `Chatd.OnAccept`.
- `Chatc.OnReceive`: its contract covers the ignored, lost and gibberish cases; well-formed frames are stated by `Session.Rendered`.
- `Chatc.Step`: its contract covers the failed read, EXIT, other typed lines, a lost connection, and reads that are ignored; well-formed frames are stated by `Chatc.OnReceive` and `Session.Rendered`. A `recv` that returns a negative count does nothing in the C loop, and the model's `RecvFailed` event does nothing too.

## Findings

| source | as written | input that shows it | evidently intended | confidence | as-written member | corrected member |
|---|---|---|---|---|---|---|
| lib/linkedlist.c:174-180 | `pop` frees the matching node and decrements `count` but never unlinks it from the chain | push 5, push 6, pop 5: `findNode(5)` still walks to the freed node, so `isIdentified(5)` reads freed memory instead of returning -1 | remove the first matching node from the chain | not executed | LinkedList.RawPopKeepsFreedNode | LinkedList.Pop |
| chatc.c:257-264 | the client's `logger` writes to the file only when `logLevel % 2 == 0` | `-l` alone sets logLevel 1 and opens the file, yet a lost connection writes nothing to it | write to the file when logLevel is odd, as the server's `logger` does (chatd.c:309) | not executed | Chatc.LostConnectionUnlogged | Chatc.Logger |
| chatd.c:306-311 | `logger` passes the assembled line to `printf` and `fprintf` as the format string | with logging to the console, a client sends NEW with the name "%n"; the join line "++ %n\n" holds a `%n` conversion with no argument | print the line with a `"%s"` format | not executed | ChatdProps.PercentNameUndefined | Chatd.Logger |

=== FILE: bytes.dfy ===
/** Byte strings and the C-string view of them.

    The program stores every frame, name and line in a `char` buffer and
    reads it back with `strlen`, `strcpy`, `strcat` and `strncpy`. Those
    functions see only the bytes before the first zero byte. `CStr` is that
    view, and every place the program uses a `str*` function the model goes
    through `CStr`. */
module Bytes {

  /** One octet, taken as unsigned. */
  type byte = x: int | 0 <= x < 256

  /** The bytes of an ASCII literal. */
  function Str(s: string): (r: seq<byte>)
    requires forall i :: 0 <= i < |s| ==> s[i] as int < 256
    ensures |r| == |s|
    ensures forall i :: 0 <= i < |s| ==> r[i] == s[i] as int
  {
    seq(|s|, i requires 0 <= i < |s| => s[i] as int)
  }

  /** No zero byte anywhere: the whole sequence is one C string. */
  predicate NoNul(s: seq<byte>)
  {
    forall i :: 0 <= i < |s| ==> s[i] != 0
  }

  /** The C string stored at the start of `s`: everything before the first
      zero byte, or all of `s` when it holds none. */
  function CStr(s: seq<byte>): (r: seq<byte>)
    ensures |r| <= |s| && forall i :: 0 <= i < |r| ==> r[i] == s[i]
    ensures NoNul(r)
    ensures |r| < |s| ==> s[|r|] == 0
  {
    ScanToNul(s)
  }

  /** The byte-by-byte scan behind `CStr`. `CStr` itself is not recursive,
      so every use of it denotes one and the same term. */
  function ScanToNul(s: seq<byte>): (r: seq<byte>)
    ensures |r| <= |s| && forall i :: 0 <= i < |r| ==> r[i] == s[i]
    ensures NoNul(r)
    ensures |r| < |s| ==> s[|r|] == 0
    decreases |s|
  {
    if |s| == 0 || s[0] == 0 then [] else [s[0]] + ScanToNul(s[1..])
  }

  /** `strlen` finds a terminator inside the buffer. When it does not, the C
      code reads past the end of the buffer. */
  predicate Terminated(s: seq<byte>)
  {
    |CStr(s)| < |s|
  }

  function Zeros(n: nat): (r: seq<byte>)
    ensures |r| == n
    ensures forall i :: 0 <= i < n ==> r[i] == 0
  {
    seq(n, i => 0)
  }

  /** `data` in a zeroed buffer of `n` bytes, as after `bzero` and a copy. */
  function Pad(data: seq<byte>, n: nat): (r: seq<byte>)
    requires |data| <= n
    ensures |r| == n
  {
    data + Zeros(n - |data|)
  }

  /** At most the first `n` bytes of `s`, the limit of `strncat` and `strncpy`. */
  function Take(s: seq<byte>, n: int): (r: seq<byte>)
    ensures |r| <= |s| && r == s[..|r|]
    ensures |r| == if n < 0 then 0 else if n < |s| then n else |s|
  {
    if n <= 0 then [] else if n < |s| then s[..n] else s
  }

  /** A sequence without zero bytes is its own C string. */
  lemma CStrOfNoNul(s: seq<byte>)
    requires NoNul(s)
    ensures CStr(s) == s
  {
  }

  /** A C string followed by a terminator reads back as exactly itself,
      whatever comes after the terminator. */
  lemma CStrStopsAtNul(s: seq<byte>, rest: seq<byte>)
    requires NoNul(s) && |rest| > 0 && rest[0] == 0
    ensures CStr(s + rest) == s
  {
    assert (s + rest)[|s|] == rest[0];
  }

  /** A C string padded with zeros to a larger buffer reads back as itself,
      and the buffer is terminated. */
  lemma CStrOfPad(s: seq<byte>, n: nat)
    requires NoNul(s) && |s| < n
    ensures CStr(Pad(s, n)) == s
    ensures Terminated(Pad(s, n))
  {
    assert Pad(s, n) == s + Zeros(n - |s|);
    CStrStopsAtNul(s, Zeros(n - |s|));
  }

  lemma NoNulConcat(a: seq<byte>, b: seq<byte>)
    requires NoNul(a) && NoNul(b)
    ensures NoNul(a + b)
  {
    forall i | 0 <= i < |a + b|
      ensures (a + b)[i] != 0
    {
      if i < |a| { assert (a + b)[i] == a[i]; } else { assert (a + b)[i] == b[i - |a|]; }
    }
  }
}

=== FILE: chatc.dfy ===
/** The client of chatc.c: the frame encoder `sendMessage`, the handling of
    one typed line, and the rendering of one received frame. Each handler
    returns the effects the C code performs, in order, or `Undefined` where
    the C code has undefined behaviour. */
module Chatc {
  import opened Wrappers
  import opened Bytes
  import opened Config
  import opened Wire

  datatype Effect =
    | SendFrame(data: seq<byte>)   // `send` on the server socket
    | Display(line: seq<byte>)     // `put_chat_message`
    | LogFile(line: seq<byte>)     // `fprintf(logfile, ...)`
    | LogStderr(line: seq<byte>)   // `fprintf(stderr, ...)`
    | WaitKey                      // `fgetc(stdin)` before a fatal exit
    | Exit(code: int)

  /** The client's settings: its display name as kept in `argUserName`,
      and the logging flags (`-l` adds 1 and opens the file, `-v` adds 2). */
  datatype Client = Client(name: seq<byte>, logLevel: nat, fileOpen: bool)

  /** `argUserName` holds a C string; `argUserName[MAX_NAME_SIZE - 1] = '\0'`
      keeps it to at most MAX_NAME_SIZE - 1 bytes. */
  predicate ValidClient(c: Client)
  {
    NoNul(c.name) && |c.name| < MAX_NAME_SIZE
  }

  datatype Outcome = Done(effects: seq<Effect>) | Undefined

  datatype Event =
    | Line(text: seq<byte>)     // one line from `get_chat_message`
    | Incoming(data: seq<byte>) // what `recv` read; empty when it returned 0
    | RecvFailed                // `recv` returned a negative count

  const EXIT_COMMAND: seq<byte> := Str("EXIT")
  const CONNECTION_LOST: Text := Str("SERVER ERROR: Connection lost.") + Str("  Press any key to exit.")
  const SERVER_GIBBERISH: Text := Str("SERVER ERROR: Server is talking ") + Str("gibberish!  Press any key to exit.")
  const ERROR_PREFIX: Text := Str("SERVER ERROR: ")
  const JOINED: Text := Str(" has joined.")
  const LEFT: Text := Str(" has left.")

  /** `strlen` of a tag followed by a length byte: 3 when the byte is 0,
      where `strncat` will then start writing, and 4 otherwise. */
  lemma HeaderLength(t: Tag, b: byte)
    ensures |CStr(TagBytes(t) + [b])| == if b == 0 then 3 else 4
  {
    var h := TagBytes(t) + [b];
    if b == 0 {
      CStrStopsAtNul(TagBytes(t), [b]);
    } else {
      NoNulConcat(TagBytes(t), [b]);
      CStrOfNoNul(h);
    }
  }

  /** `sendMessage`: a payload shorter than MAX_PAYLOAD is framed as tag,
      length byte and payload, `strlen(data) + 4` bytes in all; a longer
      one sends nothing (the function returns 0). The buffer is built as
      the C code does: `strncpy` of the tag, the length byte, then
      `strncat`, which starts at the first zero byte. */
  function SendMessage(t: Tag, data: seq<byte>): (r: Option<seq<byte>>)
    requires NoNul(data)
    ensures r.Some? <==> |data| < MAX_PAYLOAD
    ensures r.Some? ==> |r.value| == |data| + 4 && r.value == Frame(t, data)
  {
    var n := |data|;
    if n < MAX_PAYLOAD then
      var header := TagBytes(t) + [LengthByte(n)];
      HeaderLength(t, LengthByte(n));
      var start := |CStr(header)|;
      var buf := header[..start] + data + Zeros(MAX_PACKET_SIZE - start - n);
      assert start == 3 ==> n == 0;
      Some(buf[..n + 4])
    else None
  }

  function Sent(frame: Option<seq<byte>>): seq<Effect>
  {
    match frame
    case Some(f) => [SendFrame(f)]
    case None => []
  }

  /** `logger` as written: the file receives a line only when logLevel is
      even, so `-l` alone (logLevel 1) never writes to the file it opened. */
  function LoggerAsWritten(c: Client, text: seq<byte>): (r: seq<Effect>)
    ensures LogFile(text) in r <==> (c.logLevel % 2 == 0 && c.fileOpen)
    ensures LogStderr(text) in r <==> c.logLevel > 1
    ensures forall k :: 0 <= k < |r| ==> r[k] == LogFile(text) || r[k] == LogStderr(text)
    ensures |r| <= 2 && (|r| == 2 ==> r == [LogFile(text), LogStderr(text)])
  {
    (if c.logLevel % 2 == 0 && c.fileOpen then [LogFile(text)] else [])
    + (if c.logLevel > 1 then [LogStderr(text)] else [])
  }

  /** `logger` as intended, the same test the server uses: the file receives
      every line when `-l` was given (logLevel odd) and the file is open;
      stderr receives it when `-v` was given (logLevel above 1). */
  function Logger(c: Client, text: seq<byte>): (r: seq<Effect>)
    ensures LogFile(text) in r <==> (c.logLevel % 2 == 1 && c.fileOpen)
    ensures LogStderr(text) in r <==> c.logLevel > 1
    ensures forall k :: 0 <= k < |r| ==> r[k] == LogFile(text) || r[k] == LogStderr(text)
    ensures |r| <= 2 && (|r| == 2 ==> r == [LogFile(text), LogStderr(text)])
  {
    (if c.logLevel % 2 == 1 && c.fileOpen then [LogFile(text)] else [])
    + (if c.logLevel > 1 then [LogStderr(text)] else [])
  }

  /** With `-l` alone the file was opened (logLevel 1), yet `logger` as
      written leaves it empty, while the intended `Logger` writes to it. */
  lemma LogFlagAloneLosesLines(name: seq<byte>, text: seq<byte>)
    ensures LoggerAsWritten(Client(name, 1, true), text) == []
    ensures Logger(Client(name, 1, true), text) == [LogFile(text)]
  {
  }

  /** Start-up: the NEW frame with the client's own name; exit 1 when the
      `send` of it returned less than 1. */
  function Start(c: Client, sendResult: int): (r: seq<Effect>)
    requires ValidClient(c)
    ensures |r| >= 1 && r[0] == SendFrame(Frame(NEW, c.name))
    ensures Exit(1) in r <==> sendResult < 1
  {
    var hello := SendMessage(NEW, c.name);
    Sent(hello) + (if sendResult < 1 then [Exit(1)] else [])
  }

  /** One typed line. "EXIT" sends BYE with the client's own name and ends
      the session (exit 0). Any other line is sent as MSG (when short
      enough for `sendMessage`) and echoed locally as `name + ": " + line`;
      an echo of MAX_LINE bytes or more does not fit `newMessage` and
      overflows it. */
  function OnLine(c: Client, line: seq<byte>): (o: Outcome)
    requires ValidClient(c) && NoNul(line) && |line| < MAX_LINE
    ensures line == EXIT_COMMAND ==> o == Done([SendFrame(Frame(BYE, c.name)), Exit(0)])
    ensures line != EXIT_COMMAND && |line| < MAX_PAYLOAD && |c.name| + 2 + |line| < MAX_LINE ==>
      o == Done([SendFrame(Frame(MSG, line)), Display(c.name + SEPARATOR + line)])
    ensures line != EXIT_COMMAND && |line| >= MAX_PAYLOAD && o.Done? ==>
      o.effects == [Display(c.name + SEPARATOR + line)]
    ensures line != EXIT_COMMAND && |c.name| + 2 + |line| >= MAX_LINE ==> o == Undefined
  {
    if line == EXIT_COMMAND then
      var bye := Sent(SendMessage(BYE, c.name));
      assert bye == [SendFrame(Frame(BYE, c.name))];
      assert bye + [Exit(0)] == [SendFrame(Frame(BYE, c.name)), Exit(0)];
      Done(bye + [Exit(0)])
    else
      var echo := c.name + SEPARATOR + line;
      if |echo| >= MAX_LINE then Undefined
      else
        var msg := Sent(SendMessage(MSG, line));
        assert |line| < MAX_PAYLOAD ==> msg + [Display(echo)] == [SendFrame(Frame(MSG, line)), Display(echo)];
        Done(msg + [Display(echo)])
  }

  /** `what + suffix` built in `newMessage` by `strcpy` then `strcat`. */
  function Joined(what: seq<byte>, suffix: seq<byte>): (o: Outcome)
    ensures o.Done? <==> |what| + |suffix| < MAX_LINE
    ensures o.Done? ==> o.effects == [Display(what + suffix)]
  {
    if |what + suffix| >= MAX_LINE then Undefined else Done([Display(what + suffix)])
  }

  /** One `recv` on the server socket. A zero-byte read reports the lost
      connection, waits for a key and exits 1. Reads of at most four bytes
      and frames whose length byte exceeds MAX_PAYLOAD are ignored. NEW and
      BYE render the payload with " has joined." or " has left.", MSG the
      payload cut to the length byte, ERR is logged as "SERVER ERROR: "
      and the payload, and any other tag is fatal (exit 0 after a key).
      Every report goes through `logger` as written. */
  function OnReceive(c: Client, data: seq<byte>): (o: Outcome)
    requires |data| <= MAX_LINE
    ensures |data| == 0 ==> o == Done(LoggerAsWritten(c, CONNECTION_LOST) + [WaitKey, Exit(1)])
    ensures 0 < |data| <= 4 ==> o == Done([])
    ensures |data| > 4 && data[3] > MAX_PAYLOAD ==> o == Done([])
    ensures |data| > 4 && data[3] <= MAX_PAYLOAD && TagOf(data).None? ==>
      o == Done(LoggerAsWritten(c, SERVER_GIBBERISH) + [WaitKey, Exit(0)])
  {
    if |data| == 0 then Done(LoggerAsWritten(c, CONNECTION_LOST) + [WaitKey, Exit(1)])
    else if |data| <= 4 then Done([])
    else
      var buf := Pad(data, MAX_LINE);
      assert buf[..3] == data[..3] && buf[3] == data[3];
      var len := buf[3];
      var rest := buf[4..];
      if len > MAX_PAYLOAD then Done([])
      else if TagOf(buf).None? then Done(LoggerAsWritten(c, SERVER_GIBBERISH) + [WaitKey, Exit(0)])
      else if !Terminated(rest) then Undefined
      else
        match TagOf(buf).value
        case NEW => Joined(CStr(rest), JOINED)
        case BYE => Joined(CStr(rest), LEFT)
        case MSG => Done([Display(Take(CStr(rest), len))])
        case ERR =>
          var report := ERROR_PREFIX + CStr(rest);
          if |report| >= MAX_LINE then Undefined else Done(LoggerAsWritten(c, report))
  }

  /** With `-l` alone, a lost connection is reported nowhere: the step
      writes neither the log file nor stderr, where the intended `Logger`
      writes the file. */
  lemma LostConnectionUnlogged(name: seq<byte>)
    ensures OnReceive(Client(name, 1, true), []) == Done([WaitKey, Exit(1)])
    ensures Logger(Client(name, 1, true), CONNECTION_LOST) == [LogFile(CONNECTION_LOST)]
  {
  }

  /** One iteration's worth of work for one ready input. */
  function Step(c: Client, ev: Event): (o: Outcome)
    requires ValidClient(c)
    requires ev.Line? ==> NoNul(ev.text) && |ev.text| < MAX_LINE
    requires ev.Incoming? ==> |ev.data| <= MAX_LINE
    ensures ev.RecvFailed? ==> o == Done([])
    ensures ev.Line? && ev.text == EXIT_COMMAND ==> o == Done([SendFrame(Frame(BYE, c.name)), Exit(0)])
    ensures ev.Line? && ev.text != EXIT_COMMAND && |ev.text| < MAX_PAYLOAD && |c.name| + 2 + |ev.text| < MAX_LINE ==>
      o == Done([SendFrame(Frame(MSG, ev.text)), Display(c.name + SEPARATOR + ev.text)])
    ensures ev.Line? && ev.text != EXIT_COMMAND && |c.name| + 2 + |ev.text| >= MAX_LINE ==> o == Undefined
    ensures ev.Incoming? && ev.data == [] ==>
      o.Done? && |o.effects| >= 2 && o.effects[|o.effects| - 2..] == [WaitKey, Exit(1)]
    ensures ev.Incoming? && 0 < |ev.data| <= 4 ==> o == Done([])
    ensures ev.Incoming? && |ev.data| > 4 && ev.data[3] > MAX_PAYLOAD ==> o == Done([])
  {
    match ev
    case Line(text) => OnLine(c, text)
    case Incoming(data) => OnReceive(c, data)
    case RecvFailed => Done([])
  }
}

=== FILE: chatd.dfy ===
/** The server of chatd.c as a step function. One call handles one ready
    descriptor of the `select` loop: a character on the console, a new
    connection on the listening socket, or one `recv` on a client socket.
    It returns the next state and the effects the C code would perform,
    in order, or `Undefined` where the C code has undefined behaviour. */
module Chatd {
  import opened Wrappers
  import opened Bytes
  import opened Config
  import opened Wire
  import LL = LinkedList

  datatype LogDest = Console | LogFile

  datatype Effect =
    | Send(fd: int, data: seq<byte>)
    | Close(fd: int)
    | Log(dest: LogDest, line: seq<byte>)   // `line` written as text; see `Format.Printed`
    | Exit(code: int)

  /** The command-line settings: `-l` adds 1 to `logLevel` and opens the
      log file, `-c` adds 2, `-v` adds 6. */
  datatype Settings = Settings(logLevel: nat, fileOpen: bool)

  /** The loop's state: the registry, the `master` descriptor set, the
      highest descriptor and the listening socket. */
  datatype Server = Server(clients: LL.List, active: set<int>, fdmax: int, listener: int)

  datatype Event =
    | ConsoleChar(c: int)                  // what `fgetc(stdin)` returned, -1 for EOF
    | Accepted(s: int)                     // what `accept` returned, negative on failure
    | Received(fd: int, data: seq<byte>)   // what `recv` read; empty when it returned 0 or less

  /** Why a step has undefined behaviour in C. */
  datatype Fault =
    | NullName            // a NULL name from `getNameBySocket` reaches `strcpy` or `strcmp`
    | UnterminatedName    // a 25-byte name fills `userName` with no terminator
    | Overflow            // a write past the end of a fixed buffer
    | UnterminatedBuffer  // `strlen` or `strcat` runs off the end of `buf`

  datatype Outcome = Next(st: Server, effects: seq<Effect>) | Undefined(fault: Fault)

  /** Effects performed before a later outcome. Undefined behaviour later
      in the same step makes the whole step undefined. */
  function Then(pre: seq<Effect>, o: Outcome): (r: Outcome)
    ensures o.Undefined? <==> r.Undefined?
    ensures o.Next? ==> r == Next(o.st, pre + o.effects)
  {
    match o
    case Next(st, e) => Next(st, pre + e)
    case Undefined(f) => o
  }

  const GOING_DOWN: Text := Str("Server going down!")
  const SERVER_FULL: Text := Str("Server is full! Come back later.")
  const INVALID_PACKET: Text := Str("Invalid packet! Cya!")
  const NAME_REJECTED: Text := Str("User name too long ") + Str("or have already identified.")
  const WRONG_USER: Text := Str("Trying to quit a different user!")
  const MSG_TOO_LONG: Text := Str("Message too long.")
  const IDENTIFY_FIRST: Text := Str("Identify first and then we'll talk!")
  const DONT_CARE: Text := Str("Don't care about your problems.")
  const GIBBERISH: Text := Str("!! User is talking gibberish! ") + Str("Disconnecting...")

  /** The prefixes of the console lines `logger` writes, and their end. */
  const JOIN_MARK: seq<byte> := Str("++ ")
  const LEAVE_MARK: seq<byte> := Str("-- ")
  const CHAT_MARK: seq<byte> := Str(":D ")
  const NEWLINE: seq<byte> := Str("\n")

  /** The state after setup: empty registry, console and listener watched. */
  function Boot(listener: int): (r: Server)
    ensures r.active == {0, listener} && r.fdmax == listener && r.listener == listener
    ensures forall s :: !LL.Has(r.clients, s)
    ensures 0 < listener ==> forall sender :: sender != 0 ==> Recipients(r, sender) == {0}
  {
    Server(LL.Initialize(), {0, listener}, listener, listener)
  }

  // sendPacket

  /** Descriptors from `from` to `fdmax` that `sendPacket` writes to: in the
      set, neither the listener nor the sender. */
  function RecipientsFrom(st: Server, sender: int, from: int): set<int>
  {
    set i | i in st.active && from <= i <= st.fdmax && i != st.listener && i != sender
  }

  function Recipients(st: Server, sender: int): set<int>
  {
    RecipientsFrom(st, sender, 0)
  }

  /** `e` sends `data` exactly once to each member of `fds`, in ascending
      descriptor order, and does nothing else. */
  predicate IsBroadcast(e: seq<Effect>, fds: set<int>, data: seq<byte>)
  {
    && (forall k :: 0 <= k < |e| ==> e[k].Send? && e[k].data == data && e[k].fd in fds)
    && (forall fd :: fd in fds ==> exists k :: 0 <= k < |e| && e[k].Send? && e[k].fd == fd)
    && (forall j, k :: 0 <= j < k < |e| ==> e[j].Send? && e[k].Send? && e[j].fd < e[k].fd)
  }

  /** The `for (i = from; i <= fdmax; i++)` loop of `sendPacket`. */
  function SendLoop(st: Server, sender: int, data: seq<byte>, from: int): (r: seq<Effect>)
    ensures IsBroadcast(r, RecipientsFrom(st, sender, from), data)
    ensures forall k :: 0 <= k < |r| ==> from <= r[k].fd
    decreases st.fdmax - from
  {
    if from > st.fdmax then []
    else
      var rest := SendLoop(st, sender, data, from + 1);
      if from in st.active && from != st.listener && from != sender then
        assert RecipientsFrom(st, sender, from) == RecipientsFrom(st, sender, from + 1) + {from};
        BroadcastCons(rest, RecipientsFrom(st, sender, from + 1), data, from);
        [Send(from, data)] + rest
      else
        assert RecipientsFrom(st, sender, from) == RecipientsFrom(st, sender, from + 1);
        rest
  }

  /** Sending to a smaller descriptor first extends a broadcast. */
  lemma BroadcastCons(rest: seq<Effect>, fds: set<int>, data: seq<byte>, x: int)
    requires IsBroadcast(rest, fds, data)
    requires forall k :: 0 <= k < |rest| ==> x < rest[k].fd
    ensures IsBroadcast([Send(x, data)] + rest, fds + {x}, data)
  {
    var e := [Send(x, data)] + rest;
    forall fd | fd in fds + {x}
      ensures exists k :: 0 <= k < |e| && e[k].Send? && e[k].fd == fd
    {
      if fd == x {
        assert e[0].fd == fd;
      } else {
        var k :| 0 <= k < |rest| && rest[k].Send? && rest[k].fd == fd;
        assert e[k + 1] == rest[k];
      }
    }
  }

  /** `sendPacket`: the C string in `buf` to every recipient, or nothing
      at all when it is longer than MAX_PACKET_SIZE. */
  function SendPacket(st: Server, sender: int, buf: seq<byte>): (r: seq<Effect>)
    requires Terminated(buf)
    ensures |CStr(buf)| > MAX_PACKET_SIZE ==> r == []
    ensures |CStr(buf)| <= MAX_PACKET_SIZE ==> IsBroadcast(r, Recipients(st, sender), CStr(buf))
  {
    if |CStr(buf)| <= MAX_PACKET_SIZE then SendLoop(st, sender, CStr(buf), 0) else []
  }

  // sendUserError

  /** `sendUserError`: one ERR frame carrying `text`, to `socket` alone. */
  function SendUserError(socket: int, text: seq<byte>): (r: seq<Effect>)
    requires NoNul(text) && |text| <= MAX_PAYLOAD
    ensures |r| == 1 && r[0].Send? && r[0].fd == socket
    ensures |r[0].data| == |text| + 4 && r[0].data == Frame(ERR, text)
  {
    [Send(socket, TagBytes(ERR) + [LengthByte(|text|)] + text)]
  }

  // logger

  /** The line `logger` formats for a packet buffer, or `None` where it
      returns early: a length byte above MAX_PAYLOAD, or a tag it does not
      log (MSG is logged only from logLevel 4). The payload part is what
      `strncat` copies: at most `packet[3]` bytes of the C string at
      offset 4. */
  function LogLine(logLevel: nat, packet: seq<byte>): (r: Option<seq<byte>>)
    requires |packet| == MAX_LINE
    ensures r.Some? <==> (packet[3] <= MAX_PAYLOAD &&
      (TagOf(packet) == Some(NEW) || TagOf(packet) == Some(BYE) || (TagOf(packet) == Some(MSG) && logLevel >= 4)))
    ensures r.Some? ==> 4 <= |r.value| <= MAX_LINE - 1 && r.value[|r.value| - 1] == '\n' as byte
    ensures r.Some? ==> r.value[..3] ==
                        if TagOf(packet) == Some(NEW) then JOIN_MARK
                        else if TagOf(packet) == Some(BYE) then LEAVE_MARK
                        else CHAT_MARK
    ensures r.Some? ==> r.value[3..|r.value| - 1] == Take(CStr(packet[4..]), packet[3])
  {
    var dataLen := packet[3];
    if dataLen > MAX_PAYLOAD then None
    else
      var prefix :=
        if TagOf(packet) == Some(NEW) then Some(JOIN_MARK)
        else if TagOf(packet) == Some(BYE) then Some(LEAVE_MARK)
        else if TagOf(packet) == Some(MSG) && logLevel >= 4 then Some(CHAT_MARK)
        else None;
      match prefix
      case None => None
      case Some(p) => Some(p + Take(CStr(packet[4..]), dataLen) + NEWLINE)
  }

  /** `logger`: the formatted line goes to the console when logLevel > 1 and
      to the log file when logLevel is odd and the file is open. */
  function Logger(cfg: Settings, packet: seq<byte>): (r: seq<Effect>)
    requires |packet| == MAX_LINE
    ensures LogLine(cfg.logLevel, packet).None? ==> r == []
    ensures forall k :: 0 <= k < |r| ==> r[k].Log? && Some(r[k].line) == LogLine(cfg.logLevel, packet)
    ensures LogLine(cfg.logLevel, packet).Some? ==>
      (Log(Console, LogLine(cfg.logLevel, packet).value) in r <==> cfg.logLevel > 1)
    ensures LogLine(cfg.logLevel, packet).Some? ==>
      (Log(LogFile, LogLine(cfg.logLevel, packet).value) in r <==> (cfg.logLevel % 2 == 1 && cfg.fileOpen))
    ensures |r| <= 2 && (|r| == 2 ==> r[0].dest == Console && r[1].dest == LogFile)
  {
    match LogLine(cfg.logLevel, packet)
    case None => []
    case Some(line) => LogTo(cfg, line)
  }

  /** The two `printf` calls at the end of `logger`: the console first, then
      the log file, each at most once. */
  function LogTo(cfg: Settings, line: seq<byte>): (r: seq<Effect>)
    ensures forall k :: 0 <= k < |r| ==> r[k].Log? && r[k].line == line
    ensures Log(Console, line) in r <==> cfg.logLevel > 1
    ensures Log(LogFile, line) in r <==> (cfg.logLevel % 2 == 1 && cfg.fileOpen)
    ensures |r| <= 2 && (|r| == 2 ==> r[0].dest == Console && r[1].dest == LogFile)
  {
    (if cfg.logLevel > 1 then [Log(Console, line)] else [])
    + (if cfg.logLevel % 2 == 1 && cfg.fileOpen then [Log(LogFile, line)] else [])
  }

  /** `e` is a broadcast of `frame` to `fds` followed only by log lines. */
  predicate Announces(e: seq<Effect>, fds: set<int>, frame: seq<byte>)
  {
    exists k :: 0 <= k <= |e| && IsBroadcast(e[..k], fds, frame) && forall j :: k <= j < |e| ==> e[j].Log?
  }

  lemma AnnouncesOf(b: seq<Effect>, logs: seq<Effect>, fds: set<int>, frame: seq<byte>)
    requires IsBroadcast(b, fds, frame) && forall j :: 0 <= j < |logs| ==> logs[j].Log?
    ensures Announces(b + logs, fds, frame)
  {
    assert (b + logs)[..|b|] == b;
  }

  /** A frame built in a zeroed MAX_LINE buffer, passed to `sendPacket` and
      then to `logger`: every other client receives the frame, then the
      log lines follow. */
  function Announce(st: Server, cfg: Settings, sender: int, frame: seq<byte>): (r: seq<Effect>)
    requires NoNul(frame) && |frame| < MAX_LINE
    ensures Announces(r, Recipients(st, sender), frame)
    ensures forall k :: 0 <= k < |r| && r[k].Log? ==> Some(r[k].line) == LogLine(cfg.logLevel, Pad(frame, MAX_LINE))
  {
    CStrOfPad(frame, MAX_LINE);
    var b := SendPacket(st, sender, Pad(frame, MAX_LINE));
    var logs := Logger(cfg, Pad(frame, MAX_LINE));
    AnnouncesOf(b, logs, Recipients(st, sender), frame);
    LinesAfterSends(b, logs, LogLine(cfg.logLevel, Pad(frame, MAX_LINE)));
    b + logs
  }

  lemma LinesAfterSends(b: seq<Effect>, logs: seq<Effect>, line: Option<seq<byte>>)
    requires forall k :: 0 <= k < |b| ==> b[k].Send?
    requires forall k :: 0 <= k < |logs| ==> logs[k].Log? && Some(logs[k].line) == line
    ensures forall k :: 0 <= k < |b + logs| && (b + logs)[k].Log? ==> Some((b + logs)[k].line) == line
  {
    forall k | 0 <= k < |b + logs| && (b + logs)[k].Log?
      ensures Some((b + logs)[k].line) == line
    {
      if k >= |b| {
        assert (b + logs)[k] == logs[k - |b|];
      }
    }
  }

  // killUser

  /** `killUser`: an identified victim's BYE frame (its stored name) goes to
      everyone but the listener and the victim and is logged; then the
      socket is closed, popped from the registry and cleared from the set.
      On a socket the registry does not hold, `isIdentified` returns -1,
      which is true in C, and the NULL name reaches `strcpy`. */
  function KillUser(st: Server, cfg: Settings, socket: int): (o: Outcome)
    ensures LL.IsIdentified(st.clients, socket) == -1 ==> o == Undefined(NullName)
    ensures o.Next? ==> o.st == st.(clients := LL.Pop(st.clients, socket), active := st.active - {socket})
    ensures o.Next? ==> |o.effects| > 0 && o.effects[|o.effects| - 1] == Close(socket)
    ensures LL.IsIdentified(st.clients, socket) == 0 ==> o.Next? && o.effects == [Close(socket)]
  {
    var id := LL.IsIdentified(st.clients, socket);
    var after := st.(clients := LL.Pop(st.clients, socket), active := st.active - {socket});
    if id == 0 then Next(after, [Close(socket)])
    else
      match LL.GetNameBySocket(st.clients, socket)
      case None => Undefined(NullName)
      case Some(stored) =>
        var name := CStr(stored);
        if |name| >= MAX_NAME_SIZE then Undefined(Overflow)
        else
          CStrOfCompose(BYE, |name|, name);
          Next(after, Announce(st, cfg, socket, Compose(BYE, |name|, name)) + [Close(socket)])
  }

  /** A composed frame with a terminator-free body fits a MAX_LINE buffer
      as one C string when it is short enough. */
  lemma CStrOfCompose(t: Tag, n: int, body: seq<byte>)
    requires NoNul(body) && |Compose(t, n, body)| < MAX_LINE
    ensures NoNul(Compose(t, n, body))
    ensures CStr(Pad(Compose(t, n, body), MAX_LINE)) == Compose(t, n, body)
    ensures Terminated(Pad(Compose(t, n, body), MAX_LINE))
  {
    var head := TagBytes(t) + (if LengthByte(n) == 0 then [] else [LengthByte(n)]);
    assert NoNul(head);
    NoNulConcat(head, body);
    assert Compose(t, n, body) == head + body;
    CStrOfPad(Compose(t, n, body), MAX_LINE);
  }

  /** The `sendUserError` then `killUser` pair every refusal uses. */
  function Refuse(st: Server, cfg: Settings, fd: int, text: Text): (o: Outcome)
    ensures o.Undefined? <==> KillUser(st, cfg, fd).Undefined?
    ensures o.Next? ==>
      && |o.effects| > 0 && o.effects[0] == Send(fd, Frame(ERR, text))
      && o.st == st.(clients := LL.Pop(st.clients, fd), active := st.active - {fd})
  {
    Then(SendUserError(fd, text), KillUser(st, cfg, fd))
  }

  // The dispatch branches of main.

  /** The console branch: a newline is ignored; anything else (EOF
      included) tells every client the server is going down and exits 0. */
  function OnConsole(st: Server, c: int): (o: Outcome)
    ensures c == '\n' as int ==> o == Next(st, [])
    ensures c != '\n' as int ==> o.Next? && o.st == st && |o.effects| > 0 && o.effects[|o.effects| - 1] == Exit(0)
    ensures c != '\n' as int ==> IsBroadcast(o.effects[..|o.effects| - 1], Recipients(st, 0), Frame(ERR, GOING_DOWN))
  {
    if c == '\n' as int then Next(st, [])
    else
      CStrOfCompose(ERR, |GOING_DOWN|, GOING_DOWN);
      FrameIsComposed(ERR, GOING_DOWN);
      var e := SendPacket(st, 0, Pad(Compose(ERR, |GOING_DOWN|, GOING_DOWN), MAX_LINE));
      assert (e + [Exit(0)])[..|e|] == e;
      Next(st, e + [Exit(0)])
  }

  /** The listener branch. A failed accept exits 1. A full registry sends
      the new socket the "Server is full!" error and closes it, changing
      nothing else. Otherwise the socket is registered unidentified and
      watched, and `fdmax` rises to it when larger. */
  function OnAccept(st: Server, s: int): (o: Outcome)
    ensures s < 0 ==> o == Next(st, [Exit(1)])
    ensures 0 <= s && st.clients.Count() >= MAX_PENDING ==>
      o == Next(st, [Send(s, Frame(ERR, SERVER_FULL)), Close(s)])
    ensures 0 <= s && st.clients.Count() < MAX_PENDING ==>
      o.Next? && o.effects == [] && o.st.listener == st.listener
      && o.st.active == st.active + {s}
      && o.st.fdmax == (if s > st.fdmax then s else st.fdmax)
      && o.st.clients.Count() == st.clients.Count() + 1
      && o.st.clients.nodes[..st.clients.Count()] == st.clients.nodes
      && o.st.clients.nodes[st.clients.Count()] == LL.Node(s, false, [])
  {
    if s < 0 then Next(st, [Exit(1)])
    else if st.clients.Count() >= MAX_PENDING then
      var e := SendUserError(s, SERVER_FULL);
      assert e == [Send(s, Frame(ERR, SERVER_FULL))];
      assert e + [Close(s)] == [Send(s, Frame(ERR, SERVER_FULL)), Close(s)];
      Next(st, e + [Close(s)])
    else
      Next(st.(clients := LL.Push(st.clients, s), active := st.active + {s},
               fdmax := if s > st.fdmax then s else st.fdmax), [])
  }

  /** NEW: a name of at most 25 bytes from a socket that is not yet
      identified is stored (the payload up to its first zero byte) and the
      received buffer is rebroadcast and logged; otherwise the sender is
      refused and disconnected. */
  function OnNew(st: Server, cfg: Settings, fd: int, buf: seq<byte>): (o: Outcome)
    requires |buf| == MAX_LINE && buf[3] <= MAX_PAYLOAD
    ensures (buf[3] > MAX_NAME_SIZE || LL.IsIdentified(st.clients, fd) == 1) ==>
      o == Refuse(st, cfg, fd, NAME_REJECTED)
    ensures LL.IsIdentified(st.clients, fd) == 0 && buf[3] == MAX_NAME_SIZE && NoNul(buf[4..4 + MAX_NAME_SIZE]) ==>
      o == Undefined(UnterminatedName)
    ensures buf[3] <= MAX_NAME_SIZE && LL.IsIdentified(st.clients, fd) != 1 && o.Next? ==>
      Terminated(buf) && o.st == st.(clients := LL.SetNameBySocket(st.clients, fd, CStr(buf[4..4 + buf[3]])))
      && o.effects == SendPacket(st, fd, buf) + Logger(cfg, buf)
  {
    if buf[3] <= MAX_NAME_SIZE && LL.IsIdentified(st.clients, fd) != 1 then Identify(st, cfg, fd, buf)
    else Refuse(st, cfg, fd, NAME_REJECTED)
  }

  /** The accepting half of NEW: the name is the payload up to its first
      zero byte, at most the length byte long. */
  function Identify(st: Server, cfg: Settings, fd: int, buf: seq<byte>): (o: Outcome)
    requires |buf| == MAX_LINE && buf[3] <= MAX_NAME_SIZE
    ensures LL.Has(st.clients, fd) && buf[3] == MAX_NAME_SIZE && NoNul(buf[4..4 + MAX_NAME_SIZE]) ==>
      o == Undefined(UnterminatedName)
    ensures o.Next? ==>
      Terminated(buf) && o.st == st.(clients := LL.SetNameBySocket(st.clients, fd, CStr(buf[4..4 + buf[3]])))
      && o.effects == SendPacket(st, fd, buf) + Logger(cfg, buf)
  {
    var name := CStr(buf[4..4 + buf[3]]);
    if LL.IsIdentified(st.clients, fd) != -1 && |name| >= MAX_NAME_SIZE then Undefined(UnterminatedName)
    else if !Terminated(buf) then Undefined(UnterminatedBuffer)
    else Next(st.(clients := LL.SetNameBySocket(st.clients, fd, name)), SendPacket(st, fd, buf) + Logger(cfg, buf))
  }

  /** BYE: with a length of at most 25, the embedded name is compared with
      the stored one; equal disconnects, different first sends the "Trying
      to quit a different user!" error. A longer length does nothing. */
  function OnBye(st: Server, cfg: Settings, fd: int, buf: seq<byte>): (o: Outcome)
    requires |buf| == MAX_LINE && buf[3] <= MAX_PAYLOAD
    ensures buf[3] > MAX_NAME_SIZE ==> o == Next(st, [])
    ensures buf[3] == MAX_NAME_SIZE ==> o == Undefined(Overflow)
    ensures buf[3] < MAX_NAME_SIZE && LL.GetNameBySocket(st.clients, fd).None? ==> o == Undefined(NullName)
    ensures buf[3] <= MAX_NAME_SIZE && o.Next? ==>
      o.st == st.(clients := LL.Pop(st.clients, fd), active := st.active - {fd})
  {
    var len := buf[3];
    if len <= MAX_NAME_SIZE then
      if len == MAX_NAME_SIZE then Undefined(Overflow)
      else
        match LL.GetNameBySocket(st.clients, fd)
        case None => Undefined(NullName)
        case Some(stored) =>
          if CStr(buf[4..4 + len]) == CStr(stored) then KillUser(st, cfg, fd)
          else Refuse(st, cfg, fd, WRONG_USER)
    else Next(st, [])
  }

  /** MSG: an identified sender's payload is rebroadcast (see `Relay`); an
      unidentified sender is refused and disconnected. */
  function OnMsg(st: Server, cfg: Settings, fd: int, buf: seq<byte>): (o: Outcome)
    requires |buf| == MAX_LINE && buf[3] <= MAX_PAYLOAD
    ensures LL.IsIdentified(st.clients, fd) == 0 ==> o == Refuse(st, cfg, fd, IDENTIFY_FIRST)
    ensures LL.IsIdentified(st.clients, fd) == -1 ==> o == Undefined(NullName)
    ensures LL.IsIdentified(st.clients, fd) == 1 ==>
      LL.GetNameBySocket(st.clients, fd).Some? && o == Relay(st, cfg, fd, LL.GetNameBySocket(st.clients, fd).value, buf)
    ensures o.Next? && LL.IsIdentified(st.clients, fd) != 0 ==> o.st == st
  {
    if LL.IsIdentified(st.clients, fd) == 0 then
      Refuse(st, cfg, fd, IDENTIFY_FIRST)
    else
      match LL.GetNameBySocket(st.clients, fd)
      case None => Undefined(NullName)
      case Some(stored) => Relay(st, cfg, fd, stored, buf)
  }

  /** The relay of an identified sender's MSG: the payload is rebroadcast
      as `name + ": " + payload` under a length byte of
      `strlen(name) + 2 + length`. Past MAX_PAYLOAD the sender is also sent
      "Message too long." and the frame is still built and sent. The server
      state is never changed. */
  function Relay(st: Server, cfg: Settings, fd: int, stored: seq<byte>, buf: seq<byte>): (o: Outcome)
    requires |buf| == MAX_LINE && buf[3] <= MAX_PAYLOAD
    ensures o.Next? ==> o.st == st
  {
    var name := CStr(stored);
    if |name| >= MAX_NAME_SIZE then Undefined(Overflow)
    else
      if !Terminated(buf[4..]) then Undefined(UnterminatedBuffer)
      else
        NoNulConcat(name, SEPARATOR);
        NoNulConcat(name + SEPARATOR, CStr(buf[4..]));
        Deliver(st, cfg, fd, RelayedLength(name, buf[3]), name + SEPARATOR + CStr(buf[4..]))
  }

  /** The length byte value `onMsg` computes for a relayed line:
      `strlen(name) + 2 + length`, before any truncation to a byte. */
  function RelayedLength(name: seq<byte>, len: int): int
  {
    |name| + 2 + len
  }

  /** The tail of the MSG handler once the sender's name and text are
      joined: the composed packet must fit one line; it then goes to
      every other identified client and to the log. */
  function Deliver(st: Server, cfg: Settings, fd: int, newLen: int, body: seq<byte>): (o: Outcome)
    requires NoNul(body)
    ensures o.Next? ==> o.st == st
  {
    var composed := Compose(MSG, newLen, body);
    if |composed| >= MAX_LINE then Undefined(Overflow)
    else
      CStrOfCompose(MSG, newLen, body);
      Next(st, Warning(fd, newLen) + Announce(st, cfg, fd, composed))
  }

  /** "Message too long." to the sender when the relayed length passes
      MAX_PAYLOAD; the relay goes ahead either way. */
  function Warning(fd: int, newLen: int): (r: seq<Effect>)
    ensures newLen <= MAX_PAYLOAD ==> r == []
    ensures newLen > MAX_PAYLOAD ==> r == [Send(fd, Frame(ERR, MSG_TOO_LONG))]
  {
    if newLen > MAX_PAYLOAD then SendUserError(fd, MSG_TOO_LONG) else []
  }

  /** A client socket is readable: one `recv` of `data`. */
  function OnReceive(st: Server, cfg: Settings, fd: int, data: seq<byte>): (o: Outcome)
    requires |data| <= MAX_LINE
    ensures |data| == 0 ==> o == KillUser(st, cfg, fd)
    ensures 1 <= |data| <= 3 ==> o == Next(st, [])
    ensures |data| > 3 && data[3] > MAX_PAYLOAD ==> o == Refuse(st, cfg, fd, INVALID_PACKET)
    ensures |data| > 3 && data[3] <= MAX_PAYLOAD && TagOf(data) == Some(NEW) ==>
      o == OnNew(st, cfg, fd, Pad(data, MAX_LINE))
    ensures |data| > 3 && data[3] <= MAX_PAYLOAD && TagOf(data) == Some(BYE) ==>
      o == OnBye(st, cfg, fd, Pad(data, MAX_LINE))
    ensures |data| > 3 && data[3] <= MAX_PAYLOAD && TagOf(data) == Some(MSG) ==>
      o == OnMsg(st, cfg, fd, Pad(data, MAX_LINE))
    ensures |data| > 3 && data[3] <= MAX_PAYLOAD && TagOf(data) == Some(ERR) ==>
      o == Refuse(st, cfg, fd, DONT_CARE)
    ensures |data| > 3 && data[3] <= MAX_PAYLOAD && TagOf(data).None? ==>
      o == Then(Logger(cfg, Pad(GIBBERISH, MAX_LINE)), KillUser(st, cfg, fd))
  {
    if |data| == 0 then KillUser(st, cfg, fd)
    else if |data| <= 3 then Next(st, [])
    else
      var buf := Pad(data, MAX_LINE);
      assert buf[..3] == data[..3] && buf[3] == data[3];
      if buf[3] > MAX_PAYLOAD then Refuse(st, cfg, fd, INVALID_PACKET)
      else
        match TagOf(buf)
        case Some(NEW) => OnNew(st, cfg, fd, buf)
        case Some(BYE) => OnBye(st, cfg, fd, buf)
        case Some(MSG) => OnMsg(st, cfg, fd, buf)
        case Some(ERR) => Refuse(st, cfg, fd, DONT_CARE)
        case None => Then(Logger(cfg, Pad(GIBBERISH, MAX_LINE)), KillUser(st, cfg, fd))
  }

  /** The loop only reads descriptors in its set: a client socket, never the
      console or the listener, and `recv` reads at most MAX_LINE bytes. */
  predicate Ready(st: Server, ev: Event)
  {
    ev.Received? ==> ev.fd in st.active && ev.fd != 0 && ev.fd != st.listener && |ev.data| <= MAX_LINE
  }

  /** One serviced descriptor of the main loop. */
  function Step(st: Server, cfg: Settings, ev: Event): (o: Outcome)
    requires Ready(st, ev)
    ensures ev.Received? ==> o == OnReceive(st, cfg, ev.fd, ev.data)
  {
    match ev
    case ConsoleChar(c) => OnConsole(st, c)
    case Accepted(s) => OnAccept(st, s)
    case Received(fd, data) => OnReceive(st, cfg, fd, data)
  }
}

=== FILE: chatdprops.dfy ===
/** Properties of the chatd.c step function: the invariant the main loop
    keeps (registry capacity among it) and the protocol's promises for
    each kind of frame. */
module ChatdProps {
  import opened Wrappers
  import opened Bytes
  import opened Config
  import opened Wire
  import LL = LinkedList
  import opened Chatd
  import Format

  /** A registry record of a live client: its socket is watched, is neither
      the console nor the listener, and its name is a short C string. */
  predicate ClientRecord(st: Server, n: LL.Node)
  {
    n.s in st.active && n.s != 0 && n.s != st.listener && NoNul(n.name) && |n.name| < MAX_NAME_SIZE
  }

  /** What the loop maintains: console and listener are watched, `fdmax`
      bounds the set, the watched client sockets are exactly the registry's,
      each registered once, and the registry stays within MAX_PENDING. */
  predicate Inv(st: Server)
  {
    && 0 < st.listener <= st.fdmax
    && 0 in st.active && st.listener in st.active
    && (forall fd :: fd in st.active ==> 0 <= fd <= st.fdmax)
    && LL.Distinct(st.clients)
    && st.clients.Count() <= MAX_PENDING
    && (forall n :: n in st.clients.nodes ==> ClientRecord(st, n))
    && (forall fd :: fd in st.active && fd != 0 && fd != st.listener ==> LL.Has(st.clients, fd))
  }

  /** `accept` hands out a descriptor that is not already open. */
  predicate Fresh(st: Server, ev: Event)
  {
    ev.Accepted? && ev.s >= 0 ==> ev.s !in st.active
  }

  /** A watched client socket. */
  predicate IsClient(st: Server, fd: int)
  {
    fd in st.active && fd != 0 && fd != st.listener
  }

  lemma BootInv(listener: int)
    requires 0 < listener
    ensures Inv(Boot(listener))
  {
  }

  /** Removing a registered client from the registry and the set keeps
      the invariant and forgets it. */
  lemma ForgetKeepsInv(st: Server, fd: int)
    requires Inv(st) && IsClient(st, fd)
    ensures var s2 := st.(clients := LL.Pop(st.clients, fd), active := st.active - {fd});
      Inv(s2) && !LL.Has(s2.clients, fd) && fd !in s2.active
  {
    LL.PopForgets(st.clients, fd);
  }

  /** Disconnecting a registered client keeps the invariant and forgets it. */
  lemma KillKeepsInv(st: Server, cfg: Settings, fd: int)
    requires Inv(st) && IsClient(st, fd)
    ensures KillUser(st, cfg, fd).Next?
    ensures Inv(KillUser(st, cfg, fd).st)
    ensures !LL.Has(KillUser(st, cfg, fd).st.clients, fd) && fd !in KillUser(st, cfg, fd).st.active
  {
    KillDefined(st, cfg, fd);
    ForgetKeepsInv(st, fd);
  }

  /** Naming a registered client with a short C string keeps the invariant. */
  lemma NameKeepsInv(st: Server, fd: int, name: seq<byte>)
    requires Inv(st) && IsClient(st, fd) && NoNul(name) && |name| < MAX_NAME_SIZE
    ensures Inv(st.(clients := LL.SetNameBySocket(st.clients, fd, name)))
  {
    var s2 := st.(clients := LL.SetNameBySocket(st.clients, fd, name));
    LL.SetNameKeepsSockets(st.clients, fd, name);
    forall i, j | 0 <= i < j < |s2.clients.nodes|
      ensures s2.clients.nodes[i].s != s2.clients.nodes[j].s
    {
      assert s2.clients.nodes[i].s == st.clients.nodes[i].s;
      assert s2.clients.nodes[j].s == st.clients.nodes[j].s;
    }
  }

  /** Admitting a fresh socket below capacity keeps the invariant. */
  lemma AdmitKeepsInv(st: Server, s: int)
    requires Inv(st) && s >= 0 && s !in st.active && st.clients.Count() < MAX_PENDING
    ensures Inv(OnAccept(st, s).st)
  {
    var s2 := OnAccept(st, s).st;
    forall k | 0 <= k < |st.clients.nodes|
      ensures st.clients.nodes[k].s != s
    {
      assert st.clients.nodes[k] in st.clients.nodes;
    }
    LL.PushKeepsDistinct(st.clients, s);
    forall n | n in s2.clients.nodes
      ensures ClientRecord(s2, n)
    {
      var k :| 0 <= k < |s2.clients.nodes| && s2.clients.nodes[k] == n;
      if k < st.clients.Count() {
        assert n == st.clients.nodes[k];
      }
    }
    forall fd | fd in s2.active && fd != 0 && fd != s2.listener
      ensures LL.Has(s2.clients, fd)
    {
      if fd == s {
        assert s2.clients.nodes[st.clients.Count()].s == s;
      } else {
        var k :| 0 <= k < |st.clients.nodes| && st.clients.nodes[k].s == fd;
        assert s2.clients.nodes[k].s == fd;
      }
    }
  }

  lemma NewKeepsInv(st: Server, cfg: Settings, fd: int, buf: seq<byte>)
    requires Inv(st) && IsClient(st, fd) && |buf| == MAX_LINE && buf[3] <= MAX_PAYLOAD
    ensures OnNew(st, cfg, fd, buf).Next? ==> Inv(OnNew(st, cfg, fd, buf).st)
  {
    if buf[3] <= MAX_NAME_SIZE && LL.IsIdentified(st.clients, fd) != 1 {
      IdentifyKeepsInv(st, cfg, fd, buf);
    } else {
      RefuseDisconnects(st, cfg, fd, NAME_REJECTED);
    }
  }

  /** Naming a registered client from its NEW buffer keeps the invariant. */
  lemma IdentifyKeepsInv(st: Server, cfg: Settings, fd: int, buf: seq<byte>)
    requires Inv(st) && IsClient(st, fd) && |buf| == MAX_LINE && buf[3] <= MAX_NAME_SIZE
    ensures Identify(st, cfg, fd, buf).Next? ==> Inv(Identify(st, cfg, fd, buf).st)
  {
    if Identify(st, cfg, fd, buf).Next? {
      assert LL.Has(st.clients, fd);
      IdentifiedNameFits(st, cfg, fd, buf);
      NameKeepsInv(st, fd, CStr(buf[4..4 + buf[3]]));
    }
  }

  /** A registered client that `Identify` names gets a name shorter than
      MAX_NAME_SIZE. */
  lemma IdentifiedNameFits(st: Server, cfg: Settings, fd: int, buf: seq<byte>)
    requires |buf| == MAX_LINE && buf[3] <= MAX_NAME_SIZE && LL.Has(st.clients, fd)
    ensures Identify(st, cfg, fd, buf).Next? ==> |CStr(buf[4..4 + buf[3]])| < MAX_NAME_SIZE
  {
  }

  lemma ByeKeepsInv(st: Server, cfg: Settings, fd: int, buf: seq<byte>)
    requires Inv(st) && IsClient(st, fd) && |buf| == MAX_LINE && buf[3] <= MAX_PAYLOAD
    ensures OnBye(st, cfg, fd, buf).Next? ==> Inv(OnBye(st, cfg, fd, buf).st)
  {
    if buf[3] <= MAX_NAME_SIZE {
      KillKeepsInv(st, cfg, fd);
    }
  }

  lemma MsgKeepsInv(st: Server, cfg: Settings, fd: int, buf: seq<byte>)
    requires Inv(st) && IsClient(st, fd) && |buf| == MAX_LINE && buf[3] <= MAX_PAYLOAD
    ensures OnMsg(st, cfg, fd, buf).Next? ==> Inv(OnMsg(st, cfg, fd, buf).st)
  {
    if LL.IsIdentified(st.clients, fd) == 0 {
      KillKeepsInv(st, cfg, fd);
    }
  }

  /** The receive branches leave the state alone, disconnect the sender, or
      name it; all keep the invariant. */
  lemma ReceiveKeepsInv(st: Server, cfg: Settings, fd: int, data: seq<byte>)
    requires Inv(st) && IsClient(st, fd) && |data| <= MAX_LINE
    requires OnReceive(st, cfg, fd, data).Next?
    ensures Inv(OnReceive(st, cfg, fd, data).st)
  {
    if |data| == 0 {
      KillKeepsInv(st, cfg, fd);
    } else if |data| <= 3 {
    } else if data[3] > MAX_PAYLOAD {
      KillKeepsInv(st, cfg, fd);
    } else {
      var buf := Pad(data, MAX_LINE);
      match TagOf(data)
      case Some(NEW) => NewKeepsInv(st, cfg, fd, buf);
      case Some(BYE) => ByeKeepsInv(st, cfg, fd, buf);
      case Some(MSG) => MsgKeepsInv(st, cfg, fd, buf);
      case Some(ERR) => KillKeepsInv(st, cfg, fd);
      case None => KillKeepsInv(st, cfg, fd);
    }
  }

  /** Every defined step from a state satisfying the invariant, on an event
      the loop can see, keeps the invariant. */
  lemma StepKeepsInv(st: Server, cfg: Settings, ev: Event)
    requires Inv(st) && Ready(st, ev) && Fresh(st, ev) && Step(st, cfg, ev).Next?
    ensures Inv(Step(st, cfg, ev).st)
  {
    match ev
    case ConsoleChar(c) =>
    case Accepted(s) =>
      if s >= 0 && st.clients.Count() < MAX_PENDING {
        AdmitKeepsInv(st, s);
      }
    case Received(fd, data) =>
      ReceiveKeepsInv(st, cfg, fd, data);
  }

  /** A step that exits ends the process, so no run goes past one. */
  predicate NoExit(e: seq<Effect>)
  {
    forall x :: x in e ==> !x.Exit?
  }

  /** `evs` takes the loop from `st0` to `st` through defined steps on
      events it can see. */
  predicate Runs(st0: Server, cfg: Settings, evs: seq<Event>, st: Server)
    decreases |evs|
  {
    if |evs| == 0 then st == st0
    else
      && Ready(st0, evs[0]) && Fresh(st0, evs[0])
      && Step(st0, cfg, evs[0]).Next? && NoExit(Step(st0, cfg, evs[0]).effects)
      && Runs(Step(st0, cfg, evs[0]).st, cfg, evs[1..], st)
  }

  /** From start-up, every reachable state keeps the invariant; in
      particular the registry never holds more than MAX_PENDING clients. */
  lemma {:induction false} RunsKeepInv(st0: Server, cfg: Settings, evs: seq<Event>, st: Server)
    requires Inv(st0) && Runs(st0, cfg, evs, st)
    ensures Inv(st) && st.clients.Count() <= MAX_PENDING
    decreases |evs|
  {
    if |evs| > 0 {
      StepKeepsInv(st0, cfg, evs[0]);
      RunsKeepInv(Step(st0, cfg, evs[0]).st, cfg, evs[1..], st);
    }
  }

  lemma CapacityFromBoot(listener: int, cfg: Settings, evs: seq<Event>, st: Server)
    requires 0 < listener && Runs(Boot(listener), cfg, evs, st)
    ensures st.clients.Count() <= MAX_PENDING
  {
    BootInv(listener);
    RunsKeepInv(Boot(listener), cfg, evs, st);
  }

  // What one received frame does.

  /** A well-formed frame in the zeroed receive buffer: the tag and length
      read back, and the payload is the C string at offset 4. */
  lemma ReadFrame(t: Tag, p: seq<byte>)
    requires NoNul(p) && 0 < |p| <= MAX_PAYLOAD
    ensures var buf := Pad(Frame(t, p), MAX_LINE);
      && buf[3] == |p| && TagOf(buf) == Some(t)
      && buf[4..4 + |p|] == p && Terminated(buf[4..]) && CStr(buf[4..]) == p
      && Terminated(buf) && CStr(buf) == Frame(t, p)
  {
    var f := Frame(t, p);
    var buf := Pad(f, MAX_LINE);
    assert buf[..3] == f[..3];
    TagBytesInjective(TagOf(buf).value, t);
    assert buf[4..] == p + Zeros(MAX_LINE - |f|);
    CStrOfPad(p, MAX_LINE - 4);
    assert Pad(p, MAX_LINE - 4) == buf[4..];
    FrameIsComposed(t, p);
    CStrOfPad(f, MAX_LINE);
  }

  /** A well-formed frame as received: its tag reads back. */
  lemma FrameTag(t: Tag, p: seq<byte>)
    requires |p| <= MAX_PAYLOAD
    ensures TagOf(Frame(t, p)) == Some(t)
  {
    TagBytesInjective(TagOf(Frame(t, p)).value, t);
  }

  /** Which branch of the loop a well-formed frame from a client reaches. */
  lemma Dispatch(st: Server, cfg: Settings, fd: int, t: Tag, p: seq<byte>)
    requires IsClient(st, fd) && NoNul(p) && 0 < |p| <= MAX_PAYLOAD
    ensures var o := Step(st, cfg, Received(fd, Frame(t, p)));
      var buf := Pad(Frame(t, p), MAX_LINE);
      && (t == NEW ==> o == OnNew(st, cfg, fd, buf))
      && (t == BYE ==> o == OnBye(st, cfg, fd, buf))
      && (t == MSG ==> o == OnMsg(st, cfg, fd, buf))
      && (t == ERR ==> o == Refuse(st, cfg, fd, DONT_CARE))
  {
    FrameTag(t, p);
  }

  /** A registered client's stored name is a short C string. */
  lemma StoredName(st: Server, fd: int, name: seq<byte>)
    requires Inv(st) && LL.GetNameBySocket(st.clients, fd) == Some(name)
    ensures NoNul(name) && |name| < MAX_NAME_SIZE && CStr(name) == name
  {
    var i :| LL.IsFirst(st.clients.nodes, fd, i) && st.clients.nodes[i].identified && name == st.clients.nodes[i].name;
    assert st.clients.nodes[i] in st.clients.nodes;
    CStrOfNoNul(name);
  }

  /** A well-formed frame is logged as its tag's mark, the payload and a
      newline; MSG only from log level 4 on, ERR never. */
  lemma FrameLogLine(logLevel: nat, t: Tag, p: seq<byte>)
    requires NoNul(p) && 0 < |p| <= MAX_PAYLOAD
    ensures LogLine(logLevel, Pad(Frame(t, p), MAX_LINE)) ==
      match t
      case NEW => Some(JOIN_MARK + p + NEWLINE)
      case BYE => Some(LEAVE_MARK + p + NEWLINE)
      case MSG => if logLevel >= 4 then Some(CHAT_MARK + p + NEWLINE) else None
      case ERR => None
  {
    var buf := Pad(Frame(t, p), MAX_LINE);
    ReadFrame(t, p);
    CStrOfNoNul(p);
    assert Take(CStr(buf[4..]), buf[3]) == p;
    var r := LogLine(logLevel, buf);
    if r.Some? {
      var line := r.value;
      assert line[3..|line| - 1] == p;
      assert line[|line| - 1..] == NEWLINE;
      assert line == line[..3] + line[3..|line| - 1] + line[|line| - 1..];
    }
  }

  /** The "++ " line `logger` writes for a NEW frame. */
  lemma NewLogLine(logLevel: nat, name: seq<byte>)
    requires NoNul(name) && 0 < |name| <= MAX_PAYLOAD
    ensures LogLine(logLevel, Pad(Frame(NEW, name), MAX_LINE)) == Some(JOIN_MARK + name + NEWLINE)
  {
    var buf := Pad(Frame(NEW, name), MAX_LINE);
    ReadFrame(NEW, name);
    CStrOfNoNul(name);
    assert Take(CStr(buf[4..]), buf[3]) == name;
    var line := LogLine(logLevel, buf).value;
    assert line[3..|line| - 1] == name;
    assert line == JOIN_MARK + name + NEWLINE;
  }

  /** The accepting half of NEW on a name of 1 to 24 bytes: the client is
      named, the frame goes to every other client, and the "++ " line goes
      to the console exactly when logLevel > 1. */
  lemma IdentifyNames(st: Server, cfg: Settings, fd: int, name: seq<byte>)
    requires Inv(st) && IsClient(st, fd) && LL.IsIdentified(st.clients, fd) == 0
    requires NoNul(name) && 0 < |name| < MAX_NAME_SIZE
    ensures var o := Identify(st, cfg, fd, Pad(Frame(NEW, name), MAX_LINE));
      && o.Next?
      && LL.GetNameBySocket(o.st.clients, fd) == Some(name)
      && o.st.active == st.active && o.st.fdmax == st.fdmax
      && Announces(o.effects, Recipients(st, fd), Frame(NEW, name))
      && (Log(Console, JOIN_MARK + name + NEWLINE) in o.effects <==> cfg.logLevel > 1)
  {
    var buf := Pad(Frame(NEW, name), MAX_LINE);
    ReadFrame(NEW, name);
    assert buf[4..4 + buf[3]] == name;
    CStrOfNoNul(name);
    LL.SetNameThenLookup(st.clients, fd, name);
    NewLogLine(cfg.logLevel, name);
    var b := SendPacket(st, fd, buf);
    var logs := Logger(cfg, buf);
    AnnouncesOf(b, logs, Recipients(st, fd), Frame(NEW, name));
    assert Log(Console, JOIN_MARK + name + NEWLINE) !in b;
  }

  /** Scenario: an unidentified client's NEW with a name of 1 to 24 bytes
      identifies it under exactly that name, and the received frame goes
      unchanged to every other client; the "++ " line is logged as
      configured. */
  lemma NewIdentifies(st: Server, cfg: Settings, fd: int, name: seq<byte>)
    requires Inv(st) && IsClient(st, fd) && LL.IsIdentified(st.clients, fd) == 0
    requires NoNul(name) && 0 < |name| < MAX_NAME_SIZE
    ensures var o := Step(st, cfg, Received(fd, Frame(NEW, name)));
      && o.Next?
      && LL.GetNameBySocket(o.st.clients, fd) == Some(name)
      && o.st.active == st.active && o.st.fdmax == st.fdmax
      && Announces(o.effects, Recipients(st, fd), Frame(NEW, name))
      && (Log(Console, JOIN_MARK + name + NEWLINE) in o.effects <==> cfg.logLevel > 1)
  {
    NewSteps(st, cfg, fd, name);
    IdentifyNames(st, cfg, fd, name);
  }

  /** An unidentified client's NEW with a name of 1 to 24 bytes takes the
      accepting branch. */
  lemma NewSteps(st: Server, cfg: Settings, fd: int, name: seq<byte>)
    requires IsClient(st, fd) && LL.IsIdentified(st.clients, fd) == 0
    requires NoNul(name) && 0 < |name| < MAX_NAME_SIZE
    ensures Step(st, cfg, Received(fd, Frame(NEW, name))) == Identify(st, cfg, fd, Pad(Frame(NEW, name), MAX_LINE))
  {
    ReadFrame(NEW, name);
    Dispatch(st, cfg, fd, NEW, name);
  }

  /** Under the invariant, disconnecting a watched client is always
      defined: it is registered, and its name fits `userName`. */
  lemma KillDefined(st: Server, cfg: Settings, fd: int)
    requires Inv(st) && IsClient(st, fd)
    ensures KillUser(st, cfg, fd).Next?
  {
    if LL.IsIdentified(st.clients, fd) == 1 {
      StoredName(st, fd, LL.GetNameBySocket(st.clients, fd).value);
    }
  }

  /** A refusal under the invariant: the error frame, then the disconnect. */
  lemma RefuseDisconnects(st: Server, cfg: Settings, fd: int, text: Text)
    requires Inv(st) && IsClient(st, fd)
    ensures var o := Refuse(st, cfg, fd, text);
      && o.Next? && |o.effects| > 1 && o.effects[0] == Send(fd, Frame(ERR, text))
      && o.effects[1..] == KillUser(st, cfg, fd).effects
      && Inv(o.st) && !LL.Has(o.st.clients, fd) && fd !in o.st.active
  {
    KillDefined(st, cfg, fd);
    ForgetKeepsInv(st, fd);
    var k := KillUser(st, cfg, fd);
    assert (SendUserError(fd, text) + k.effects)[1..] == k.effects;
  }

  /** A NEW from a client that already identified is refused with the
      "User name too long or have already identified." error, and the
      client is disconnected. */
  lemma NewTwiceRefused(st: Server, cfg: Settings, fd: int, name: seq<byte>)
    requires Inv(st) && IsClient(st, fd) && LL.IsIdentified(st.clients, fd) == 1
    requires NoNul(name) && 0 < |name| <= MAX_PAYLOAD
    ensures var o := Step(st, cfg, Received(fd, Frame(NEW, name)));
      && o.Next? && |o.effects| > 0 && o.effects[0] == Send(fd, Frame(ERR, NAME_REJECTED))
      && !LL.Has(o.st.clients, fd) && fd !in o.st.active
  {
    Dispatch(st, cfg, fd, NEW, name);
    RefuseDisconnects(st, cfg, fd, NAME_REJECTED);
  }

  /** Disconnecting an identified client: its BYE frame, built from the
      stored name, goes to every other client, is logged, and the socket
      is closed and forgotten. */
  lemma KillAnnounces(st: Server, cfg: Settings, fd: int, name: seq<byte>)
    requires Inv(st) && IsClient(st, fd) && LL.GetNameBySocket(st.clients, fd) == Some(name)
    ensures var o := KillUser(st, cfg, fd);
      && o.Next? && |o.effects| > 0
      && o.effects[|o.effects| - 1] == Close(fd)
      && Announces(o.effects[..|o.effects| - 1], Recipients(st, fd), Compose(BYE, |name|, name))
      && !LL.Has(o.st.clients, fd) && fd !in o.st.active
  {
    StoredName(st, fd, name);
    CStrOfCompose(BYE, |name|, name);
    var e := Announce(st, cfg, fd, Compose(BYE, |name|, name));
    assert (e + [Close(fd)])[..|e|] == e;
    ForgetKeepsInv(st, fd);
  }

  /** Nothing `killUser` sends goes to the victim itself. */
  lemma KillSparesVictim(st: Server, cfg: Settings, fd: int)
    requires Inv(st) && IsClient(st, fd)
    ensures KillUser(st, cfg, fd).Next?
    ensures forall e :: e in KillUser(st, cfg, fd).effects ==> !(e.Send? && e.fd == fd)
  {
    KillDefined(st, cfg, fd);
    var k := KillUser(st, cfg, fd);
    if LL.IsIdentified(st.clients, fd) == 1 {
      var name := LL.GetNameBySocket(st.clients, fd).value;
      KillAnnounces(st, cfg, fd, name);
      AnnounceSpares(k.effects[..|k.effects| - 1], Recipients(st, fd), Compose(BYE, |name|, name), fd);
      SparedUntilClose(k.effects, fd);
    }
  }

  /** An announcement sends nothing outside its recipients. */
  lemma AnnounceSpares(e: seq<Effect>, fds: set<int>, frame: seq<byte>, fd: int)
    requires Announces(e, fds, frame) && fd !in fds
    ensures forall x :: x in e ==> !(x.Send? && x.fd == fd)
  {
    var n :| 0 <= n <= |e| && IsBroadcast(e[..n], fds, frame) && forall j :: n <= j < |e| ==> e[j].Log?;
    forall x | x in e
      ensures !(x.Send? && x.fd == fd)
    {
      var j :| 0 <= j < |e| && e[j] == x;
      if j < n {
        assert x == e[..n][j];
      }
    }
  }

  /** Effects that spare `fd` and then close it spare it throughout. */
  lemma SparedUntilClose(e: seq<Effect>, fd: int)
    requires |e| > 0 && e[|e| - 1] == Close(fd)
    requires forall x :: x in e[..|e| - 1] ==> !(x.Send? && x.fd == fd)
    ensures forall x :: x in e ==> !(x.Send? && x.fd == fd)
  {
    forall x | x in e
      ensures !(x.Send? && x.fd == fd)
    {
      var j :| 0 <= j < |e| && e[j] == x;
      if j < |e| - 1 {
        assert x == e[..|e| - 1][j];
      }
    }
  }

  /** The BYE branch for a well-formed frame with a claimed name of 1 to 24
      bytes from a client identified under `stored`. */
  lemma OnByeCompares(st: Server, cfg: Settings, fd: int, stored: seq<byte>, claimed: seq<byte>)
    requires Inv(st) && IsClient(st, fd) && LL.GetNameBySocket(st.clients, fd) == Some(stored)
    requires NoNul(claimed) && 0 < |claimed| < MAX_NAME_SIZE
    ensures OnBye(st, cfg, fd, Pad(Frame(BYE, claimed), MAX_LINE)) ==
      if claimed == stored then KillUser(st, cfg, fd)
      else Refuse(st, cfg, fd, WRONG_USER)
  {
    var buf := Pad(Frame(BYE, claimed), MAX_LINE);
    ReadFrame(BYE, claimed);
    CStrOfNoNul(claimed);
    StoredName(st, fd, stored);
    assert buf[4..4 + buf[3]] == claimed;
  }

  /** A BYE frame never equals one carrying a different name. */
  lemma ByeFramesDiffer(stored: seq<byte>, claimed: seq<byte>)
    requires NoNul(stored) && |stored| < MAX_NAME_SIZE && 0 < |claimed| <= MAX_PAYLOAD && claimed != stored
    ensures Compose(BYE, |stored|, stored) != Frame(BYE, claimed)
  {
    if |stored| > 0 {
      FrameIsComposed(BYE, stored);
      assert Frame(BYE, stored)[4..] != Frame(BYE, claimed)[4..];
    } else {
      assert |Compose(BYE, |stored|, stored)| == 3;
    }
  }

  /** A BYE frame from an identified client is settled by comparing the
      claimed name with the stored one. */
  lemma ByeSteps(st: Server, cfg: Settings, fd: int, stored: seq<byte>, claimed: seq<byte>)
    requires Inv(st) && IsClient(st, fd) && LL.GetNameBySocket(st.clients, fd) == Some(stored)
    requires NoNul(claimed) && 0 < |claimed| < MAX_NAME_SIZE
    ensures Step(st, cfg, Received(fd, Frame(BYE, claimed))) ==
      if claimed == stored then KillUser(st, cfg, fd) else Refuse(st, cfg, fd, WRONG_USER)
  {
    Dispatch(st, cfg, fd, BYE, claimed);
    OnByeCompares(st, cfg, fd, stored, claimed);
  }

  /** Scenario: a client quitting under a name other than its own is told
      "Trying to quit a different user!" and disconnected; the BYE that the
      others receive carries its stored name, never the claimed one. */
  lemma ByeOfOtherUser(st: Server, cfg: Settings, fd: int, stored: seq<byte>, claimed: seq<byte>)
    requires Inv(st) && IsClient(st, fd) && LL.GetNameBySocket(st.clients, fd) == Some(stored)
    requires NoNul(claimed) && 0 < |claimed| < MAX_NAME_SIZE && claimed != stored
    ensures var o := Step(st, cfg, Received(fd, Frame(BYE, claimed)));
      && o.Next? && |o.effects| > 1 && o.effects[0] == Send(fd, Frame(ERR, WRONG_USER))
      && Announces(o.effects[1..|o.effects| - 1], Recipients(st, fd), Compose(BYE, |stored|, stored))
      && Compose(BYE, |stored|, stored) != Frame(BYE, claimed)
      && !LL.Has(o.st.clients, fd) && fd !in o.st.active
  {
    ByeSteps(st, cfg, fd, stored, claimed);
    RefuseAnnounces(st, cfg, fd, WRONG_USER, stored);
    StoredName(st, fd, stored);
    ByeFramesDiffer(stored, claimed);
  }

  /** Refusing an identified client: the error to it, then the same
      departure broadcast and close as when it leaves of its own accord. */
  lemma RefuseAnnounces(st: Server, cfg: Settings, fd: int, text: Text, name: seq<byte>)
    requires Inv(st) && IsClient(st, fd) && LL.GetNameBySocket(st.clients, fd) == Some(name)
    ensures var o := Refuse(st, cfg, fd, text);
      && o.Next? && |o.effects| > 1 && o.effects[0] == Send(fd, Frame(ERR, text))
      && Announces(o.effects[1..|o.effects| - 1], Recipients(st, fd), Compose(BYE, |name|, name))
      && !LL.Has(o.st.clients, fd) && fd !in o.st.active
  {
    RefuseDisconnects(st, cfg, fd, text);
    KillAnnounces(st, cfg, fd, name);
    SliceOfTail(Refuse(st, cfg, fd, text).effects, KillUser(st, cfg, fd).effects);
  }

  /** Dropping the first element and then the last of `e`, where `e`
      without its first element is `k`, is `k` without its last. */
  lemma SliceOfTail<T>(e: seq<T>, k: seq<T>)
    requires |e| > 1 && e[1..] == k
    ensures e[1..|e| - 1] == k[..|k| - 1]
  {
  }

  /** A client quitting under its own name is disconnected with no error:
      the others receive its BYE. */
  lemma ByeOfSelf(st: Server, cfg: Settings, fd: int, name: seq<byte>)
    requires Inv(st) && IsClient(st, fd) && LL.GetNameBySocket(st.clients, fd) == Some(name)
    requires 0 < |name| < MAX_NAME_SIZE
    ensures Step(st, cfg, Received(fd, Frame(BYE, name))) == KillUser(st, cfg, fd)
  {
    StoredName(st, fd, name);
    Dispatch(st, cfg, fd, BYE, name);
    OnByeCompares(st, cfg, fd, name, name);
  }

  /** A BYE from a client that never identified compares against the NULL
      that `getNameBySocket` returns: undefined behaviour. */
  lemma ByeBeforeNew(st: Server, cfg: Settings, fd: int, claimed: seq<byte>)
    requires Inv(st) && IsClient(st, fd) && LL.IsIdentified(st.clients, fd) == 0
    requires NoNul(claimed) && 0 < |claimed| < MAX_NAME_SIZE
    ensures Step(st, cfg, Received(fd, Frame(BYE, claimed))) == Undefined(NullName)
  {
    ReadFrame(BYE, claimed);
    Dispatch(st, cfg, fd, BYE, claimed);
  }

  /** The relayed frame, once zero-padded to MAX_LINE, reads back whole. */
  lemma RelayedPacket(name: seq<byte>, len: int, p: seq<byte>)
    requires NoNul(name) && NoNul(p) && |Compose(MSG, len, name + SEPARATOR + p)| < MAX_LINE
    ensures NoNul(Compose(MSG, len, name + SEPARATOR + p))
  {
    NoNulConcat(name, SEPARATOR);
    NoNulConcat(name + SEPARATOR, p);
    CStrOfCompose(MSG, len, name + SEPARATOR + p);
  }

  /** The relay of a payload that is a C string followed by the zeroed
      rest of the buffer, for a stored name that `userName` can hold and a
      relayed frame that fits `newMessage`: the composed frame is announced,
      after the "Message too long." warning when the relayed length passes
      MAX_PAYLOAD. */
  lemma RelayFits(st: Server, cfg: Settings, fd: int, name: seq<byte>, buf: seq<byte>, len: int, p: seq<byte>)
    requires NoNul(name) && |name| < MAX_NAME_SIZE
    requires |buf| == MAX_LINE && buf[3] == len <= MAX_PAYLOAD && NoNul(p) && |p| <= MAX_PAYLOAD && buf[4..] == Pad(p, MAX_LINE - 4)
    requires |Compose(MSG, RelayedLength(name, len), name + SEPARATOR + p)| < MAX_LINE
    ensures NoNul(Compose(MSG, RelayedLength(name, len), name + SEPARATOR + p))
    ensures Relay(st, cfg, fd, name, buf) ==
      Next(st, Warning(fd, RelayedLength(name, len)) + Announce(st, cfg, fd, Compose(MSG, RelayedLength(name, len), name + SEPARATOR + p)))
  {
    RelayedPacket(name, RelayedLength(name, len), p);
    RelayJoins(st, cfg, fd, name, buf, len, p);
  }

  /** With a stored name that has no NUL and a padded payload `p`, the MSG
      handler joins exactly "name: p" and announces `|name| + 2 + len` as
      its length. */
  lemma RelayJoins(st: Server, cfg: Settings, fd: int, name: seq<byte>, buf: seq<byte>, len: int, p: seq<byte>)
    requires NoNul(name) && |name| < MAX_NAME_SIZE
    requires |buf| == MAX_LINE && buf[3] == len <= MAX_PAYLOAD && NoNul(p) && |p| <= MAX_PAYLOAD && buf[4..] == Pad(p, MAX_LINE - 4)
    ensures NoNul(name + SEPARATOR + p)
    ensures Relay(st, cfg, fd, name, buf) == Deliver(st, cfg, fd, RelayedLength(name, len), name + SEPARATOR + p)
  {
    assert Terminated(buf[4..]) && CStr(buf[4..]) == p by { CStrOfPad(p, MAX_LINE - 4); }
    assert NoNul(name + SEPARATOR + p) by {
      NoNulConcat(name, SEPARATOR);
      NoNulConcat(name + SEPARATOR, p);
    }
    CStrOfNoNul(name);
    RelayUnfolds(st, cfg, fd, name, buf);
  }

  /** Past its two checks the MSG handler hands the joined text, and the
      length it computed, to `Deliver`. */
  lemma RelayUnfolds(st: Server, cfg: Settings, fd: int, name: seq<byte>, buf: seq<byte>)
    requires |CStr(name)| < MAX_NAME_SIZE
    requires |buf| == MAX_LINE && buf[3] <= MAX_PAYLOAD && Terminated(buf[4..])
    requires NoNul(CStr(name) + SEPARATOR + CStr(buf[4..]))
    ensures Relay(st, cfg, fd, name, buf) ==
      Deliver(st, cfg, fd, RelayedLength(CStr(name), buf[3]), CStr(name) + SEPARATOR + CStr(buf[4..]))
  {
  }

  /** The relay of such a payload when the relayed frame does not fit the
      MAX_LINE byte `newMessage`: the `strcat` overflows it. */
  lemma RelayOverflows(st: Server, cfg: Settings, fd: int, name: seq<byte>, buf: seq<byte>, p: seq<byte>)
    requires NoNul(name) && |name| < MAX_NAME_SIZE
    requires |buf| == MAX_LINE && buf[3] <= MAX_PAYLOAD && NoNul(p) && |p| <= MAX_PAYLOAD && buf[4..] == Pad(p, MAX_LINE - 4)
    requires |Compose(MSG, RelayedLength(name, buf[3]), name + SEPARATOR + p)| >= MAX_LINE
    ensures Relay(st, cfg, fd, name, buf) == Undefined(Overflow)
  {
    RelayJoins(st, cfg, fd, name, buf, buf[3], p);
  }

  /** An identified client's MSG frame reaches `Relay` with its stored name. */
  lemma MsgDispatch(st: Server, cfg: Settings, fd: int, name: seq<byte>, data: seq<byte>)
    requires Inv(st) && IsClient(st, fd) && LL.GetNameBySocket(st.clients, fd) == Some(name)
    requires 3 < |data| <= MAX_LINE && data[3] <= MAX_PAYLOAD && TagOf(data) == Some(MSG)
    ensures Step(st, cfg, Received(fd, data)) == Relay(st, cfg, fd, name, Pad(data, MAX_LINE))
    ensures NoNul(name) && |name| < MAX_NAME_SIZE
  {
    StoredName(st, fd, name);
  }

  /** The relay of a well-formed MSG frame whose relayed payload fits
      MAX_PAYLOAD: every other client is sent one MSG frame carrying
      `name + ": " + payload` with length byte `|name| + 2 + |payload|`,
      and nothing else is sent. */
  lemma RelayAnnounces(st: Server, cfg: Settings, fd: int, name: seq<byte>, p: seq<byte>)
    requires NoNul(name) && |name| < MAX_NAME_SIZE
    requires NoNul(p) && 0 < |p| && |name| + 2 + |p| <= MAX_PAYLOAD
    ensures var o := Relay(st, cfg, fd, name, Pad(Frame(MSG, p), MAX_LINE));
      && o.Next? && o.st == st
      && Announces(o.effects, Recipients(st, fd), Frame(MSG, name + SEPARATOR + p))
  {
    var f := Compose(MSG, RelayedLength(name, |p|), name + SEPARATOR + p);
    RelayedFrame(name, p);
    FrameRelays(st, cfg, fd, name, p);
    assert Warning(fd, RelayedLength(name, |p|)) == [];
    assert [] + Announce(st, cfg, fd, f) == Announce(st, cfg, fd, f);
  }

  /** A well-formed MSG frame from `name` whose relayed frame fits
      `newMessage` goes through `RelayFits`. */
  lemma FrameRelays(st: Server, cfg: Settings, fd: int, name: seq<byte>, p: seq<byte>)
    requires NoNul(name) && |name| < MAX_NAME_SIZE
    requires NoNul(p) && 0 < |p| <= MAX_PAYLOAD
    requires |Compose(MSG, RelayedLength(name, |p|), name + SEPARATOR + p)| < MAX_LINE
    ensures NoNul(Compose(MSG, RelayedLength(name, |p|), name + SEPARATOR + p))
    ensures Relay(st, cfg, fd, name, Pad(Frame(MSG, p), MAX_LINE)) ==
      Next(st, Warning(fd, RelayedLength(name, |p|)) + Announce(st, cfg, fd, Compose(MSG, RelayedLength(name, |p|), name + SEPARATOR + p)))
  {
    var buf := Pad(Frame(MSG, p), MAX_LINE);
    assert buf[3] == |p| && buf[4..] == Pad(p, MAX_LINE - 4) by {
      ReadFrame(MSG, p);
    }
    RelayFits(st, cfg, fd, name, buf, |p|, p);
  }

  /** Under a length byte that fits, the relayed frame is the well-formed
      frame of `name + ": " + p`. */
  lemma RelayedFrame(name: seq<byte>, p: seq<byte>)
    requires NoNul(name) && NoNul(p) && |name| + 2 + |p| <= MAX_PAYLOAD
    ensures Compose(MSG, RelayedLength(name, |p|), name + SEPARATOR + p) == Frame(MSG, name + SEPARATOR + p)
    ensures |Frame(MSG, name + SEPARATOR + p)| < MAX_LINE
  {
    var body := name + SEPARATOR + p;
    NoNulConcat(name, SEPARATOR);
    NoNulConcat(name + SEPARATOR, p);
    assert |body| == RelayedLength(name, |p|);
    if |body| > 0 {
      FrameIsComposed(MSG, body);
    }
  }

  /** Scenario: an identified client's MSG reaches every other client as
      one MSG frame whose payload is `name + ": " + payload` and whose
      length byte is `|name| + 2 + |payload|`; the state is unchanged. */
  lemma MsgRelays(st: Server, cfg: Settings, fd: int, name: seq<byte>, p: seq<byte>)
    requires Inv(st) && IsClient(st, fd) && LL.GetNameBySocket(st.clients, fd) == Some(name)
    requires NoNul(p) && 0 < |p| && |name| + 2 + |p| <= MAX_PAYLOAD
    ensures var o := Step(st, cfg, Received(fd, Frame(MSG, p)));
      && o.Next? && o.st == st
      && Announces(o.effects, Recipients(st, fd), Frame(MSG, name + SEPARATOR + p))
  {
    FrameTag(MSG, p);
    MsgDispatch(st, cfg, fd, name, Frame(MSG, p));
    RelayAnnounces(st, cfg, fd, name, p);
  }

  /** Scenario 2 of the protocol: alice's "hi" goes out with length 9. */
  lemma AliceSaysHi(st: Server, cfg: Settings, fd: int)
    requires Inv(st) && IsClient(st, fd) && LL.GetNameBySocket(st.clients, fd) == Some(ALICE)
    ensures var o := Step(st, cfg, Received(fd, Frame(MSG, HI)));
      && o.Next? && o.st == st
      && Announces(o.effects, Recipients(st, fd), Frame(MSG, ALICE_HI))
    ensures Frame(MSG, ALICE_HI)[3] == 9
  {
    assert ALICE + SEPARATOR + HI == ALICE_HI;
    MsgRelays(st, cfg, fd, ALICE, HI);
  }

  const ALICE: seq<byte> := Str("alice")
  const HI: seq<byte> := Str("hi")
  const ALICE_HI: seq<byte> := Str("alice: hi")

  /** A client that names itself "%n" while the console log is on: the
      step logs "++ %n\n", which `logger` hands to `printf` as its format,
      so the `%n` writes through an argument that was never passed. */
  lemma PercentNameUndefined(st: Server, cfg: Settings, fd: int)
    requires Inv(st) && IsClient(st, fd) && LL.IsIdentified(st.clients, fd) == 0 && cfg.logLevel > 1
    ensures var o := Step(st, cfg, Received(fd, Frame(NEW, PERCENT_N)));
      && o.Next? && Log(Console, JOIN_MARK + PERCENT_N + NEWLINE) in o.effects
    ensures Format.Printed(JOIN_MARK + PERCENT_N + NEWLINE).None?
  {
    NewIdentifies(st, cfg, fd, PERCENT_N);
    PercentLineUndefined();
  }

  /** "++ %n\n" is not a format `printf` can print without arguments. */
  lemma PercentLineUndefined()
    ensures Format.Printed(JOIN_MARK + PERCENT_N + NEWLINE).None?
  {
    assert JOIN_MARK + PERCENT_N + NEWLINE == JOIN_MARK + (PERCENT_N + NEWLINE);
    Format.PrintedStopsAtConversion(JOIN_MARK, PERCENT_N + NEWLINE);
  }

  /** The name "%n". */
  const PERCENT_N: seq<byte> := Str("%n")

  /** A well-formed MSG whose relayed payload would exceed MAX_PAYLOAD: the
      code sends "Message too long." but still builds the relayed frame in
      the MAX_LINE byte `newMessage`, which it overflows. */
  lemma MsgTooLongOverflows(st: Server, cfg: Settings, fd: int, name: seq<byte>, p: seq<byte>)
    requires Inv(st) && IsClient(st, fd) && LL.GetNameBySocket(st.clients, fd) == Some(name)
    requires NoNul(p) && 0 < |p| <= MAX_PAYLOAD && |name| + 2 + |p| > MAX_PAYLOAD
    ensures Step(st, cfg, Received(fd, Frame(MSG, p))) == Undefined(Overflow)
  {
    FrameTag(MSG, p);
    MsgDispatch(st, cfg, fd, name, Frame(MSG, p));
    FrameRelayOverflows(st, cfg, fd, name, p);
  }

  /** The relay of a well-formed MSG frame whose relayed payload passes
      MAX_PAYLOAD: the joined frame cannot fit `newMessage`. */
  lemma FrameRelayOverflows(st: Server, cfg: Settings, fd: int, name: seq<byte>, p: seq<byte>)
    requires NoNul(name) && |name| < MAX_NAME_SIZE
    requires NoNul(p) && 0 < |p| <= MAX_PAYLOAD && |name| + 2 + |p| > MAX_PAYLOAD
    ensures Relay(st, cfg, fd, name, Pad(Frame(MSG, p), MAX_LINE)) == Undefined(Overflow)
  {
    var buf := Pad(Frame(MSG, p), MAX_LINE);
    assert buf[3] == |p| && buf[4..] == Pad(p, MAX_LINE - 4) by {
      ReadFrame(MSG, p);
    }
    assert |Compose(MSG, RelayedLength(name, buf[3]), name + SEPARATOR + p)| >= MAX_LINE by {
      assert |name + SEPARATOR + p| == RelayedLength(name, |p|);
    }
    RelayOverflows(st, cfg, fd, name, buf, p);
  }

  /** The relay of a MSG whose length byte claims more than it carries:
      the sender is warned, then the frame built from what the buffer does
      carry goes to everyone else. */
  lemma RelayWarns(st: Server, cfg: Settings, fd: int, name: seq<byte>, claimed: byte, p: seq<byte>)
    requires NoNul(name) && |name| < MAX_NAME_SIZE
    requires claimed <= MAX_PAYLOAD && |name| + 2 + claimed > MAX_PAYLOAD
    requires NoNul(p) && |name| + 2 + |p| <= MAX_PAYLOAD
    ensures var o := Relay(st, cfg, fd, name, Pad(TagBytes(MSG) + [claimed] + p, MAX_LINE));
      && o.Next? && o.st == st && |o.effects| > 0 && o.effects[0] == Send(fd, Frame(ERR, MSG_TOO_LONG))
      && Announces(o.effects[1..], Recipients(st, fd), Compose(MSG, RelayedLength(name, claimed), name + SEPARATOR + p))
  {
    var buf := Pad(TagBytes(MSG) + [claimed] + p, MAX_LINE);
    assert buf[3] == claimed && buf[4..] == Pad(p, MAX_LINE - 4);
    RelayFits(st, cfg, fd, name, buf, claimed, p);
    var e := Announce(st, cfg, fd, Compose(MSG, RelayedLength(name, claimed), name + SEPARATOR + p));
    assert (Warning(fd, RelayedLength(name, claimed)) + e)[1..] == e;
  }

  /** A MSG whose length byte claims more than it carries: past MAX_PAYLOAD
      the sender gets "Message too long." and the frame is relayed anyway,
      its length byte wrapped to `(|name| + 2 + claimed) % 256`. So the
      oversize check does not skip the broadcast. */
  lemma MsgTooLongStillRelayed(st: Server, cfg: Settings, fd: int, name: seq<byte>, claimed: byte, p: seq<byte>)
    requires Inv(st) && IsClient(st, fd) && LL.GetNameBySocket(st.clients, fd) == Some(name)
    requires claimed <= MAX_PAYLOAD && |name| + 2 + claimed > MAX_PAYLOAD
    requires NoNul(p) && |name| + 2 + |p| <= MAX_PAYLOAD
    ensures var o := Step(st, cfg, Received(fd, TagBytes(MSG) + [claimed] + p));
      && o.Next? && o.st == st && |o.effects| > 0 && o.effects[0] == Send(fd, Frame(ERR, MSG_TOO_LONG))
      && Announces(o.effects[1..], Recipients(st, fd), Compose(MSG, RelayedLength(name, claimed), name + SEPARATOR + p))
  {
    var data := TagBytes(MSG) + [claimed] + p;
    assert data[..3] == TagBytes(MSG);
    TagBytesInjective(TagOf(data).value, MSG);
    MsgDispatch(st, cfg, fd, name, data);
    RelayWarns(st, cfg, fd, name, claimed, p);
  }

  /** An unidentified client's MSG gets "Identify first and then we'll
      talk!" and a disconnect. */
  lemma MsgBeforeNew(st: Server, cfg: Settings, fd: int, p: seq<byte>)
    requires Inv(st) && IsClient(st, fd) && LL.IsIdentified(st.clients, fd) == 0
    requires NoNul(p) && 0 < |p| <= MAX_PAYLOAD
    ensures var o := Step(st, cfg, Received(fd, Frame(MSG, p)));
      && o.Next? && o.effects == [Send(fd, Frame(ERR, IDENTIFY_FIRST)), Close(fd)]
      && !LL.Has(o.st.clients, fd) && fd !in o.st.active
  {
    Dispatch(st, cfg, fd, MSG, p);
    RefuseDisconnects(st, cfg, fd, IDENTIFY_FIRST);
  }

  /** A client's own ERR frame gets "Don't care about your problems." and
      a disconnect. */
  lemma ErrRefused(st: Server, cfg: Settings, fd: int, p: seq<byte>)
    requires Inv(st) && IsClient(st, fd)
    requires NoNul(p) && 0 < |p| <= MAX_PAYLOAD
    ensures var o := Step(st, cfg, Received(fd, Frame(ERR, p)));
      && o.Next? && |o.effects| > 1 && o.effects[0] == Send(fd, Frame(ERR, DONT_CARE))
      && Inv(o.st) && !LL.Has(o.st.clients, fd) && fd !in o.st.active
  {
    Dispatch(st, cfg, fd, ERR, p);
    RefuseDisconnects(st, cfg, fd, DONT_CARE);
  }

  /** A length byte above MAX_PAYLOAD gets "Invalid packet! Cya!" and a
      disconnect, whatever the tag. */
  lemma OversizeRefused(st: Server, cfg: Settings, fd: int, data: seq<byte>)
    requires Inv(st) && IsClient(st, fd)
    requires 3 < |data| <= MAX_LINE && data[3] > MAX_PAYLOAD
    ensures var o := Step(st, cfg, Received(fd, data));
      && o.Next? && |o.effects| > 1 && o.effects[0] == Send(fd, Frame(ERR, INVALID_PACKET))
      && Inv(o.st) && !LL.Has(o.st.clients, fd) && fd !in o.st.active
  {
    RefuseDisconnects(st, cfg, fd, INVALID_PACKET);
  }

  /** A closed or failed connection (`recv` returning 0 or less) is
      disconnected: the socket is closed last and forgotten. */
  lemma HangUpDisconnects(st: Server, cfg: Settings, fd: int)
    requires Inv(st) && IsClient(st, fd)
    ensures var o := Step(st, cfg, Received(fd, []));
      && o.Next? && |o.effects| > 0 && o.effects[|o.effects| - 1] == Close(fd)
      && Inv(o.st) && !LL.Has(o.st.clients, fd) && fd !in o.st.active
  {
    KillDefined(st, cfg, fd);
    KillKeepsInv(st, cfg, fd);
  }

  /** The "!! User is talking gibberish!" text is never logged: `logger`
      does not recognise "!! " as a tag. */
  lemma GibberishNotLogged(cfg: Settings)
    ensures Logger(cfg, Pad(GIBBERISH, MAX_LINE)) == []
  {
    var buf := Pad(GIBBERISH, MAX_LINE);
    assert buf[0] == '!' as int;
    assert TagOf(buf).None?;
  }

  /** An unknown tag disconnects the sender without sending it anything. */
  lemma UnknownTagDisconnects(st: Server, cfg: Settings, fd: int, data: seq<byte>)
    requires Inv(st) && IsClient(st, fd)
    requires 3 < |data| <= MAX_LINE && data[3] <= MAX_PAYLOAD && TagOf(data).None?
    ensures Step(st, cfg, Received(fd, data)) == KillUser(st, cfg, fd)
    ensures KillUser(st, cfg, fd).Next?
    ensures forall e :: e in KillUser(st, cfg, fd).effects ==> !(e.Send? && e.fd == fd)
  {
    GibberishNotLogged(cfg);
    KillDefined(st, cfg, fd);
    assert Then([], KillUser(st, cfg, fd)) == KillUser(st, cfg, fd);
    KillSparesVictim(st, cfg, fd);
  }
}

=== FILE: config.dfy ===
/** The compile-time constants of config.h. */
module Config {
  const SERVER_PORT: int := 5794
  /** Size of every line and packet buffer. */
  const MAX_LINE: int := 256
  /** Capacity of the server's client registry. */
  const MAX_PENDING: int := 50
  /** Largest frame, header included. */
  const MAX_PACKET_SIZE: int := 255
  /** Longest display name. */
  const MAX_NAME_SIZE: int := 25
  /** Largest payload a length byte may announce: MAX_PACKET_SIZE - 4. */
  const MAX_PAYLOAD: int := MAX_PACKET_SIZE - 4
}

=== FILE: format.dfy ===
/** The format strings of `printf` and `fprintf`. Both logging functions
    pass the line they log as the format itself, with no further
    arguments, so any `%` in a name or message is read as a conversion. */
module Format {
  import opened Wrappers
  import opened Bytes

  /** The byte `%`. */
  const PERCENT: byte := 37

  predicate NoPercent(s: seq<byte>)
  {
    forall i :: 0 <= i < |s| ==> s[i] != PERCENT
  }

  /** What `printf(fmt)` writes when no argument follows the format: `%%`
      writes one `%`, every other byte writes itself, and any other `%`
      starts a conversion that reads an argument never passed, which is
      undefined behaviour (`None`). */
  function Printed(fmt: seq<byte>): (r: Option<seq<byte>>)
    ensures r.Some? ==> |r.value| <= |fmt|
    decreases |fmt|
  {
    if |fmt| == 0 then Some([])
    else if fmt[0] != PERCENT then
      match Printed(fmt[1..])
      case Some(rest) => Some([fmt[0]] + rest)
      case None => None
    else if |fmt| >= 2 && fmt[1] == PERCENT then
      match Printed(fmt[2..])
      case Some(rest) => Some([PERCENT] + rest)
      case None => None
    else None
  }

  /** A line passed as a format is printed as itself exactly when it holds
      no `%`. */
  lemma {:induction false} PrintedVerbatim(s: seq<byte>)
    ensures Printed(s) == Some(s) <==> NoPercent(s)
    decreases |s|
  {
    if |s| > 0 {
      PrintedVerbatim(s[1..]);
      if s[0] != PERCENT {
        if Printed(s) == Some(s) {
          assert Printed(s[1..]).Some? && [s[0]] + Printed(s[1..]).value == s;
          assert Printed(s[1..]).value == s[1..];
        }
        if NoPercent(s) {
          assert NoPercent(s[1..]) by {
            forall i | 0 <= i < |s[1..]|
              ensures s[1..][i] != PERCENT
            {
              assert s[1..][i] == s[i + 1];
            }
          }
          assert [s[0]] + s[1..] == s;
        }
        if NoPercent(s[1..]) {
          forall i | 0 <= i < |s|
            ensures s[i] != PERCENT
          {
            if i > 0 { assert s[i] == s[1..][i - 1]; }
          }
        }
      }
    }
  }

  /** A `%` that ends the format or is followed by anything but a second
      `%`, after a prefix free of `%`, makes the whole print undefined. */
  lemma {:induction false} PrintedStopsAtConversion(a: seq<byte>, b: seq<byte>)
    requires NoPercent(a) && |b| >= 1 && b[0] == PERCENT && (|b| == 1 || b[1] != PERCENT)
    ensures Printed(a + b) == None
    decreases |a|
  {
    if |a| > 0 {
      assert (a + b)[0] == a[0] && (a + b)[1..] == a[1..] + b;
      assert NoPercent(a[1..]) by {
        forall i | 0 <= i < |a[1..]|
          ensures a[1..][i] != PERCENT
        {
          assert a[1..][i] == a[i + 1];
        }
      }
      PrintedStopsAtConversion(a[1..], b);
    } else {
      assert a + b == b;
    }
  }

  /** A prefix free of `%` is printed as itself in front of whatever the
      rest of the format prints. */
  lemma {:induction false} PrintedPlainPrefix(a: seq<byte>, c: seq<byte>)
    requires NoPercent(a)
    ensures Printed(a + c) == if Printed(c).Some? then Some(a + Printed(c).value) else None
    decreases |a|
  {
    if |a| > 0 {
      assert (a + c)[0] == a[0] && (a + c)[1..] == a[1..] + c;
      assert NoPercent(a[1..]) by {
        forall i | 0 <= i < |a[1..]|
          ensures a[1..][i] != PERCENT
        {
          assert a[1..][i] == a[i + 1];
        }
      }
      PrintedPlainPrefix(a[1..], c);
      assert a[0] != PERCENT;
      if Printed(c).Some? {
        var p := Printed(c).value;
        assert Printed(a[1..] + c) == Some(a[1..] + p);
        assert Printed(a + c) == Some([a[0]] + (a[1..] + p));
        assert [a[0]] + (a[1..] + p) == a + p;
      }
    } else if Printed(c).Some? {
      assert a + c == c && a + Printed(c).value == Printed(c).value;
    } else {
      assert a + c == c;
    }
  }

  /** `%%` after a prefix free of `%` prints one `%`, and the print goes on
      with the rest of the format. */
  lemma PrintedEscape(a: seq<byte>, b: seq<byte>)
    requires NoPercent(a)
    ensures Printed(a + [PERCENT, PERCENT] + b) ==
      if Printed(b).Some? then Some(a + [PERCENT] + Printed(b).value) else None
  {
    var c := [PERCENT, PERCENT] + b;
    assert c[2..] == b;
    assert a + [PERCENT, PERCENT] + b == a + c;
    PrintedPlainPrefix(a, c);
    if Printed(b).Some? {
      assert a + ([PERCENT] + Printed(b).value) == a + [PERCENT] + Printed(b).value;
    }
  }
}

=== FILE: linkedlist.dfy ===
/** The server's client registry (lib/linkedlist.c): connection records kept
    in arrival order. The chain of `next` links becomes a sequence; `count` is its
    length. */
module LinkedList {
  import opened Wrappers
  import opened Bytes
  import opened Config

  /** `struct node` without its `next` link: the socket, whether the
      client has identified, and its display name. */
  datatype Node = Node(s: int, identified: bool, name: seq<byte>)

  datatype List = List(nodes: seq<Node>) {
    function Count(): nat { |nodes| }
  }

  /** Node `i` is the first one holding `socket`. */
  predicate IsFirst(nodes: seq<Node>, socket: int, i: int)
  {
    0 <= i < |nodes| && nodes[i].s == socket
    && forall j :: 0 <= j < i ==> nodes[j].s != socket
  }

  predicate Has(l: List, socket: int)
  {
    exists i :: 0 <= i < |l.nodes| && l.nodes[i].s == socket
  }

  /** No socket is registered twice. */
  predicate Distinct(l: List)
  {
    forall i, j :: 0 <= i < j < |l.nodes| ==> l.nodes[i].s != l.nodes[j].s
  }

  predicate IsEmpty(l: List)
  {
    l.Count() == 0
  }

  function Initialize(): (l: List)
    ensures l.Count() == 0 && IsEmpty(l)
    ensures forall socket :: !Has(l, socket)
  {
    List([])
  }

  /** The `while` walk of `findNode` from position `from` onwards. */
  function FindFrom(nodes: seq<Node>, socket: int, from: nat): (r: Option<nat>)
    requires from <= |nodes|
    ensures r.None? ==> forall i :: from <= i < |nodes| ==> nodes[i].s != socket
    ensures r.Some? ==> from <= r.value < |nodes| && nodes[r.value].s == socket
    ensures r.Some? ==> forall i :: from <= i < r.value ==> nodes[i].s != socket
    decreases |nodes| - from
  {
    if from == |nodes| then None
    else if nodes[from].s == socket then Some(from)
    else FindFrom(nodes, socket, from + 1)
  }

  /** `findNode`: the position of the first node holding `socket`, or
      `None` (NULL) when the list is empty or no node holds it. */
  function FindNode(l: List, socket: int): (r: Option<nat>)
    ensures r.None? <==> !Has(l, socket)
    ensures r.Some? ==> IsFirst(l.nodes, socket, r.value)
  {
    if IsEmpty(l) then None else FindFrom(l.nodes, socket, 0)
  }

  /** `getNameBySocket`: the stored name when the socket is present and
      identified, otherwise `None` (NULL). */
  function GetNameBySocket(l: List, socket: int): (r: Option<seq<byte>>)
    ensures r.Some? ==> exists i :: IsFirst(l.nodes, socket, i) && l.nodes[i].identified && r.value == l.nodes[i].name
    ensures r.None? ==> forall i :: IsFirst(l.nodes, socket, i) ==> !l.nodes[i].identified
  {
    match FindNode(l, socket)
    case Some(i) => if l.nodes[i].identified then Some(l.nodes[i].name) else None
    case None => None
  }

  /** `isIdentified`: 1 or 0 for a present socket, -1 for an absent one. */
  function IsIdentified(l: List, socket: int): (r: int)
    ensures r == -1 <==> !Has(l, socket)
    ensures forall i :: IsFirst(l.nodes, socket, i) ==> r == if l.nodes[i].identified then 1 else 0
  {
    match FindNode(l, socket)
    case Some(i) => if l.nodes[i].identified then 1 else 0
    case None => -1
  }

  /** `setNameBySocket`: the first node holding `socket` takes the name and
      becomes identified. `strcpy` into the `MAX_NAME_SIZE + 1` byte field
      needs a name of at most `MAX_NAME_SIZE` bytes; the terminator written
      at index `MAX_NAME_SIZE` then leaves it whole. */
  function SetNameBySocket(l: List, socket: int, name: seq<byte>): (r: List)
    requires NoNul(name) && |name| <= MAX_NAME_SIZE
    ensures r.Count() == l.Count()
    ensures forall i :: IsFirst(l.nodes, socket, i) ==> r.nodes[i] == Node(socket, true, name)
    ensures forall i :: 0 <= i < |l.nodes| && !IsFirst(l.nodes, socket, i) ==> r.nodes[i] == l.nodes[i]
  {
    match FindNode(l, socket)
    case Some(i) => List(l.nodes[i := Node(socket, true, Take(name, MAX_NAME_SIZE))])
    case None => l
  }

  /** `setIdentified`: only the flag of the first matching node changes. */
  function SetIdentified(l: List, socket: int): (r: List)
    ensures r.Count() == l.Count()
    ensures forall i :: IsFirst(l.nodes, socket, i) ==> r.nodes[i] == l.nodes[i].(identified := true)
    ensures forall i :: 0 <= i < |l.nodes| && !IsFirst(l.nodes, socket, i) ==> r.nodes[i] == l.nodes[i]
  {
    match FindNode(l, socket)
    case Some(i) => List(l.nodes[i := l.nodes[i].(identified := true)])
    case None => l
  }

  /** `push`: a new unidentified node at the tail. The C node's name is
      left uninitialised; the model gives it the empty name. */
  function Push(l: List, s: int): (r: List)
    ensures r.Count() == l.Count() + 1
    ensures r.nodes[..l.Count()] == l.nodes
    ensures r.nodes[l.Count()] == Node(s, false, [])
  {
    List(l.nodes + [Node(s, false, [])])
  }

  /** `pop` as its documentation intends: the first node holding `socket`
      leaves the list; an absent socket changes nothing. (The code itself
      only frees the node and decrements `count`; see `RawPop`.) */
  function Pop(l: List, socket: int): (r: List)
    ensures !Has(l, socket) ==> r == l
    ensures Has(l, socket) ==> r.Count() == l.Count() - 1
    ensures forall i :: IsFirst(l.nodes, socket, i) ==> r.nodes == l.nodes[..i] + l.nodes[i + 1..]
  {
    match FindNode(l, socket)
    case Some(i) => List(l.nodes[..i] + l.nodes[i + 1..])
    case None => l
  }

  // Lemmas relating the operations.

  /** A pushed socket that was absent is found at the tail, unidentified
      and without a name. */
  lemma PushThenLookup(l: List, s: int)
    requires !Has(l, s)
    ensures FindNode(Push(l, s), s) == Some(l.Count())
    ensures IsIdentified(Push(l, s), s) == 0
    ensures GetNameBySocket(Push(l, s), s) == None
  {
    var p := Push(l, s);
    assert p.nodes[l.Count()].s == s;
    assert Has(p, s);
    assert forall j :: 0 <= j < l.Count() ==> p.nodes[j] == l.nodes[j];
  }

  /** Popping a freshly pushed socket gives back the list before the push. */
  lemma PopUndoesPush(l: List, s: int)
    requires !Has(l, s)
    ensures Pop(Push(l, s), s) == l
  {
    PushThenLookup(l, s);
    var p := Push(l, s);
    assert p.nodes[..l.Count()] == l.nodes;
  }

  /** Push keeps sockets distinct when the socket was absent. */
  lemma PushKeepsDistinct(l: List, s: int)
    requires Distinct(l) && !Has(l, s)
    ensures Distinct(Push(l, s))
  {
    var p := Push(l, s);
    forall i, j | 0 <= i < j < |p.nodes|
      ensures p.nodes[i].s != p.nodes[j].s
    {
      if j == l.Count() {
        assert p.nodes[i] == l.nodes[i];
      } else {
        assert p.nodes[i] == l.nodes[i] && p.nodes[j] == l.nodes[j];
      }
    }
  }

  /** After naming a present socket, the registry reports it identified
      under exactly that name. */
  lemma SetNameThenLookup(l: List, s: int, name: seq<byte>)
    requires Has(l, s) && NoNul(name) && |name| <= MAX_NAME_SIZE
    ensures IsIdentified(SetNameBySocket(l, s, name), s) == 1
    ensures GetNameBySocket(SetNameBySocket(l, s, name), s) == Some(name)
  {
    var i := FindNode(l, s).value;
    var r := SetNameBySocket(l, s, name);
    assert r.nodes[i] == Node(s, true, name);
    assert forall j :: 0 <= j < i ==> r.nodes[j] == l.nodes[j] by {
      forall j | 0 <= j < i
        ensures r.nodes[j] == l.nodes[j]
      {
        assert !IsFirst(l.nodes, s, j);
      }
    }
    assert IsFirst(r.nodes, s, i);
  }

  /** Naming one socket keeps every socket in its place; each record is
      either unchanged or the named one. */
  lemma SetNameKeepsSockets(l: List, s: int, name: seq<byte>)
    requires NoNul(name) && |name| <= MAX_NAME_SIZE
    ensures forall i :: 0 <= i < |l.nodes| ==> SetNameBySocket(l, s, name).nodes[i].s == l.nodes[i].s
    ensures forall t :: Has(SetNameBySocket(l, s, name), t) <==> Has(l, t)
    ensures forall n :: n in SetNameBySocket(l, s, name).nodes ==> n in l.nodes || n == Node(s, true, name)
  {
    var r := SetNameBySocket(l, s, name);
    forall t | Has(l, t)
      ensures Has(r, t)
    {
      var k :| 0 <= k < |l.nodes| && l.nodes[k].s == t;
      assert r.nodes[k].s == t;
    }
  }

  /** With distinct sockets, a popped socket is gone, no other socket's
      record leaves the list, and no record appears. */
  lemma PopForgets(l: List, s: int)
    requires Distinct(l) && Has(l, s)
    ensures Distinct(Pop(l, s))
    ensures forall n :: n in Pop(l, s).nodes ==> n in l.nodes && n.s != s
    ensures !Has(Pop(l, s), s)
    ensures forall t :: t != s ==> (Has(Pop(l, s), t) <==> Has(l, t))
  {
    var i := FindNode(l, s).value;
    PopKeepsRecords(l, s, i);
    PopKeepsOthers(l, s, i);
  }

  /** The records left by a pop are old ones other than the removed
      socket's, and with distinct sockets they stay distinct. */
  lemma PopKeepsRecords(l: List, s: int, i: int)
    requires Distinct(l) && IsFirst(l.nodes, s, i)
    ensures Distinct(Pop(l, s))
    ensures forall n :: n in Pop(l, s).nodes ==> n in l.nodes && n.s != s
  {
    var r := Pop(l, s);
    PopShifts(l, s, i);
    forall a, b | 0 <= a < b < |r.nodes|
      ensures r.nodes[a].s != r.nodes[b].s
    {
      assert r.nodes[a] == l.nodes[if a < i then a else a + 1];
      assert r.nodes[b] == l.nodes[if b < i then b else b + 1];
    }
    forall j | 0 <= j < |r.nodes|
      ensures r.nodes[j].s != s && r.nodes[j] in l.nodes
    {
      var k := if j < i then j else j + 1;
      assert k != i && r.nodes[j] == l.nodes[k];
    }
  }

  /** A pop keeps every other socket present. */
  lemma PopKeepsOthers(l: List, s: int, i: int)
    requires IsFirst(l.nodes, s, i)
    ensures forall t :: t != s && Has(l, t) ==> Has(Pop(l, s), t)
  {
    var r := Pop(l, s);
    PopShifts(l, s, i);
    forall t | t != s && Has(l, t)
      ensures Has(r, t)
    {
      var k :| 0 <= k < |l.nodes| && l.nodes[k].s == t;
      var j := if k < i then k else k - 1;
      assert r.nodes[j].s == t;
    }
  }

  /** Position `j` of the popped list is position `j` of the list before
      the removed node and position `j + 1` after it. */
  lemma PopShifts(l: List, s: int, i: int)
    requires IsFirst(l.nodes, s, i)
    ensures |Pop(l, s).nodes| == |l.nodes| - 1
    ensures forall j :: 0 <= j < |Pop(l, s).nodes| ==> Pop(l, s).nodes[j] == l.nodes[if j < i then j else j + 1]
  {
    assert Pop(l, s).nodes == l.nodes[..i] + l.nodes[i + 1..];
  }

  // The list as the code actually keeps it.

  /** lib/linkedlist.c state: the chain of nodes reachable from `head` and the
      separate `count` field that `isEmpty` trusts. */
  datatype RawList = RawList(chain: seq<Node>, count: int)

  function RawFind(l: RawList, socket: int): (r: Option<nat>)
    ensures l.count == 0 ==> r.None?
    ensures l.count != 0 && r.Some? ==> IsFirst(l.chain, socket, r.value)
  {
    if l.count == 0 then None else FindFrom(l.chain, socket, 0)
  }

  /** `push` on the raw list: an empty count restarts the chain at the new node. */
  function RawPush(l: RawList, s: int): (r: RawList)
    ensures r.count == if l.count == 0 then 1 else l.count + 1
    ensures |r.chain| > 0 && r.chain[|r.chain| - 1] == Node(s, false, [])
    ensures l.count == 0 ==> r.chain == [Node(s, false, [])]
    ensures l.count != 0 ==> |r.chain| == |l.chain| + 1 && r.chain[..|l.chain|] == l.chain
  {
    if l.count == 0 then RawList([Node(s, false, [])], 1)
    else RawList(l.chain + [Node(s, false, [])], l.count + 1)
  }

  /** `pop` as written: the matching node is freed and `count` drops, but
      the node is never unlinked, so it stays on the chain. */
  function RawPop(l: RawList, socket: int): (r: RawList)
    ensures RawFind(l, socket).None? ==> r == l
    ensures RawFind(l, socket).Some? ==> r.count == l.count - 1 && r.chain == l.chain
    ensures RawFind(l, socket).Some? && l.count > 1 ==> RawFind(r, socket) == RawFind(l, socket)
  {
    if RawFind(l, socket).Some? then RawList(l.chain, l.count - 1) else l
  }

  /** Sockets 5 then 6 connect and 5 is popped: the raw list still finds the
      freed node for 5, so a later `isIdentified(5)` reads freed memory
      instead of returning -1. */
  lemma RawPopKeepsFreedNode()
    ensures var l := RawPop(RawPush(RawPush(RawList([], 0), 5), 6), 5);
            l.count == 1 && RawFind(l, 5) == Some(0)
  {
    var a := RawPush(RawList([], 0), 5);
    var b := RawPush(a, 6);
    assert b.chain == [Node(5, false, []), Node(6, false, [])];
    assert RawFind(b, 5) == Some(0);
  }

  /** Until the first pop, the raw list and the model agree: the chain is
      the node sequence and `count` its length. */
  lemma RawPushAgrees(l: List, s: int)
    ensures RawPush(RawList(l.nodes, l.Count()), s) == RawList(Push(l, s).nodes, Push(l, s).Count())
    ensures l.Count() > 0 ==> RawFind(RawList(l.nodes, l.Count()), s) == FindNode(l, s)
  {
  }
}

=== FILE: session.dfy ===
/** What one client sees of another's actions: the frames chatd.c sends,
    as chatc.c renders them. These lemmas join the server model to the
    client model through the shared frame layout. */
module Session {
  import opened Wrappers
  import opened Bytes
  import opened Config
  import opened Wire
  import Chatc
  import Chatd
  import ChatdProps
  import LL = LinkedList

  /** A well-formed frame as the client reads it: NEW and BYE render the
      payload with their suffix, MSG the payload itself, ERR goes to the
      client's log after "SERVER ERROR: ". */
  lemma Rendered(c: Chatc.Client, t: Tag, p: seq<byte>)
    requires NoNul(p) && 0 < |p| <= MAX_PAYLOAD
    ensures Chatc.OnReceive(c, Frame(t, p)) ==
      match t
      case NEW => Chatc.Joined(p, Chatc.JOINED)
      case BYE => Chatc.Joined(p, Chatc.LEFT)
      case MSG => Chatc.Done([Chatc.Display(p)])
      case ERR =>
        if |Chatc.ERROR_PREFIX + p| >= MAX_LINE then Chatc.Undefined
        else Chatc.Done(Chatc.LoggerAsWritten(c, Chatc.ERROR_PREFIX + p))
  {
    ChatdProps.ReadFrame(t, p);
  }

  /** The NEW frame the server passes on for a newly named client shows as
      "<name> has joined." */
  lemma JoinSeen(c: Chatc.Client, name: seq<byte>)
    requires NoNul(name) && 0 < |name| < MAX_NAME_SIZE
    ensures Chatc.OnReceive(c, Frame(NEW, name)) == Chatc.Done([Chatc.Display(name + Chatc.JOINED)])
  {
    Rendered(c, NEW, name);
  }

  /** The BYE frame `killUser` builds from a stored name shows as
      "<name> has left." */
  lemma LeaveSeen(c: Chatc.Client, name: seq<byte>)
    requires NoNul(name) && 0 < |name| < MAX_NAME_SIZE
    ensures Chatc.OnReceive(c, Compose(BYE, |name|, name)) == Chatc.Done([Chatc.Display(name + Chatc.LEFT)])
  {
    FrameIsComposed(BYE, name);
    Rendered(c, BYE, name);
  }

  /** A relayed MSG frame shows its whole payload. */
  lemma ChatSeen(c: Chatc.Client, text: seq<byte>)
    requires NoNul(text) && 0 < |text| <= MAX_PAYLOAD
    ensures Chatc.OnReceive(c, Frame(MSG, text)) == Chatc.Done([Chatc.Display(text)])
  {
    Rendered(c, MSG, text);
  }

  /** An ERR frame from the server goes to the client's log after
      "SERVER ERROR: " when the joined line fits `errMessage`, and
      overflows it otherwise. */
  lemma ErrorSeen(c: Chatc.Client, text: seq<byte>)
    requires NoNul(text) && 0 < |text| <= MAX_PAYLOAD
    ensures |text| < MAX_LINE - |Chatc.ERROR_PREFIX| ==>
      Chatc.OnReceive(c, Frame(ERR, text)) == Chatc.Done(Chatc.LoggerAsWritten(c, Chatc.ERROR_PREFIX + text))
    ensures |text| >= MAX_LINE - |Chatc.ERROR_PREFIX| ==> Chatc.OnReceive(c, Frame(ERR, text)) == Chatc.Undefined
  {
    Rendered(c, ERR, text);
  }

  /** Every error text the server sends fits the client's "SERVER ERROR: "
      line. */
  lemma ServerErrorsFit()
    ensures |Chatd.GOING_DOWN| < MAX_LINE - |Chatc.ERROR_PREFIX|
    ensures |Chatd.SERVER_FULL| < MAX_LINE - |Chatc.ERROR_PREFIX|
    ensures |Chatd.INVALID_PACKET| < MAX_LINE - |Chatc.ERROR_PREFIX|
    ensures |Chatd.NAME_REJECTED| < MAX_LINE - |Chatc.ERROR_PREFIX|
    ensures |Chatd.WRONG_USER| < MAX_LINE - |Chatc.ERROR_PREFIX|
    ensures |Chatd.MSG_TOO_LONG| < MAX_LINE - |Chatc.ERROR_PREFIX|
    ensures |Chatd.IDENTIFY_FIRST| < MAX_LINE - |Chatc.ERROR_PREFIX|
    ensures |Chatd.DONT_CARE| < MAX_LINE - |Chatc.ERROR_PREFIX|
  {
  }

  /** A typed line from an identified client: the client sends it as MSG
      and echoes `name + ": " + line`; the server announces exactly that
      text to every other client; and each of them displays it. So what
      the others see is what the sender sees. */
  lemma EchoMatchesRelay(st: Chatd.Server, cfg: Chatd.Settings, fd: int, c: Chatc.Client, line: seq<byte>)
    requires ChatdProps.Inv(st) && ChatdProps.IsClient(st, fd)
    requires LL.GetNameBySocket(st.clients, fd) == Some(c.name) && Chatc.ValidClient(c)
    requires NoNul(line) && 0 < |line| && line != Chatc.EXIT_COMMAND && |c.name| + 2 + |line| <= MAX_PAYLOAD
    ensures Chatc.OnLine(c, line) ==
      Chatc.Done([Chatc.SendFrame(Frame(MSG, line)), Chatc.Display(c.name + SEPARATOR + line)])
    ensures var o := Chatd.Step(st, cfg, Chatd.Received(fd, Frame(MSG, line)));
      && o.Next? && o.st == st
      && Chatd.Announces(o.effects, Chatd.Recipients(st, fd), Frame(MSG, c.name + SEPARATOR + line))
    ensures forall other: Chatc.Client ::
      Chatc.OnReceive(other, Frame(MSG, c.name + SEPARATOR + line)) == Chatc.Done([Chatc.Display(c.name + SEPARATOR + line)])
  {
    ChatdProps.MsgRelays(st, cfg, fd, c.name, line);
    NoNulConcat(c.name, SEPARATOR);
    NoNulConcat(c.name + SEPARATOR, line);
    EveryoneSees(c.name + SEPARATOR + line);
  }

  /** A MSG frame shows the same line on every client, whatever its
      settings. */
  lemma EveryoneSees(text: seq<byte>)
    requires NoNul(text) && 0 < |text| <= MAX_PAYLOAD
    ensures forall c: Chatc.Client :: Chatc.OnReceive(c, Frame(MSG, text)) == Chatc.Done([Chatc.Display(text)])
  {
    forall c: Chatc.Client
      ensures Chatc.OnReceive(c, Frame(MSG, text)) == Chatc.Done([Chatc.Display(text)])
    {
      ChatSeen(c, text);
    }
  }
}

=== FILE: wire.dfy ===
/** The frame layout shared by chatd.c and chatc.c: a three-byte ASCII tag,
    one length byte, then the payload. */
module Wire {
  import opened Wrappers
  import opened Bytes
  import opened Config

  datatype Tag = NEW | BYE | MSG | ERR

  /** A C string short enough to be the payload of one frame. */
  type Text = s: seq<byte> | NoNul(s) && |s| <= MAX_PAYLOAD witness []

  /** What the server puts between a sender's name and its text, and what
      the client puts between its own name and its echoed line. */
  const SEPARATOR: seq<byte> := Str(": ")

  function TagBytes(t: Tag): (r: seq<byte>)
    ensures |r| == 3 && NoNul(r)
  {
    match t
    case NEW => Str("NEW")
    case BYE => Str("BYE")
    case MSG => Str("MSG")
    case ERR => Str("ERR")
  }

  /** Distinct tags are spelled differently. */
  lemma TagBytesInjective(a: Tag, b: Tag)
    requires TagBytes(a) == TagBytes(b)
    ensures a == b
  {
    assert TagBytes(a)[0] == TagBytes(b)[0];
    assert TagBytes(a)[2] == TagBytes(b)[2];
  }

  /** The tag a buffer starts with, as the chain of
      `strncmp(buf, "NEW", 3) == 0` tests decides it. */
  function TagOf(buf: seq<byte>): (r: Option<Tag>)
    requires |buf| >= 3
    ensures r.Some? <==> exists t :: buf[..3] == TagBytes(t)
    ensures r.Some? ==> buf[..3] == TagBytes(r.value)
  {
    if buf[..3] == TagBytes(NEW) then Some(NEW)
    else if buf[..3] == TagBytes(BYE) then Some(BYE)
    else if buf[..3] == TagBytes(MSG) then Some(MSG)
    else if buf[..3] == TagBytes(ERR) then Some(ERR)
    else None
  }

  /** `(char)n`: the length field keeps the low eight bits. */
  function LengthByte(n: int): byte
  {
    n % 256
  }

  /** A frame laid out in a zeroed buffer the way the C code does it:
      `strcpy(buf, tag)`, `buf[3] = (char)n`, then `strcat(buf, body)`.
      When the length byte is zero, `strcat` finds the terminator at index 3
      and writes the body over it, so no length byte remains. */
  function Compose(t: Tag, n: int, body: seq<byte>): (r: seq<byte>)
    ensures |r| == |body| + (if LengthByte(n) == 0 then 3 else 4)
  {
    TagBytes(t) + (if LengthByte(n) == 0 then [] else [LengthByte(n)]) + body
  }

  /** A well-formed frame: tag, exact length, payload. */
  function Frame(t: Tag, payload: seq<byte>): (r: seq<byte>)
    requires |payload| <= MAX_PAYLOAD
    ensures |r| == |payload| + 4 && |r| <= MAX_PACKET_SIZE
  {
    TagBytes(t) + [|payload| as byte] + payload
  }

  /** A frame whose payload is a non-empty C string is exactly what
      `Compose` builds from it, and is one C string as a whole. */
  lemma FrameIsComposed(t: Tag, payload: seq<byte>)
    requires 0 < |payload| <= MAX_PAYLOAD && NoNul(payload)
    ensures Frame(t, payload) == Compose(t, |payload|, payload)
    ensures NoNul(Frame(t, payload))
  {
    NoNulConcat(TagBytes(t) + [|payload| as byte], payload);
  }
}

=== FILE: wrappers.dfy ===
/** A value that may be absent: the model of a C function that returns
    NULL or a sentinel instead of a result. */
module Wrappers {
  datatype Option<T> = None | Some(value: T)
}
